=== FILE: README.md ===
# Salary Dojo, modelled in Dafny

Salary Dojo is a practice ground for salary negotiations. The employee picks one of three
boss personas and names the raise they want. They then argue their case, in text or by
voice, against a chat model that plays the boss. After each turn a coaching tip tells them
which tactic they used. At the end a grading function scores the conversation in five areas. A small
credit ledger limits how many negotiations they can start.

This project models the decision logic behind that experience and proves what it promises:

- **Coaching tips** (`Tactics`). The tip classifier is a first-match chain of nine
  case-insensitive regular expressions over a fixed catalogue of ten tips. Each expression
  becomes a list of alternatives: literal words, digit patterns, or `word.*x` spreads.
- **Chat relay** (`ChatRelay`). The `negotiation-chat` edge function picks the last user
  message, renames roles for the gateway, and maps the gateway's status to its own.
- **Grading** (`GradeEngine`). The `grade-conversation` edge function renders the
  transcript, states the five-area rubric, and cuts the greedy `{…}` span out of the
  answer. When nothing can be parsed it falls back to a fixed grading.
- **Prompts** (`Personas`, `RealtimeSession`). The persona catalogue, the chat and feedback
  prompts, and the voice session's choice of character and voice.
- **Bands** (`GradingView`, `TensionBar`). The colour bands of the grading screen and of
  the tension meter.
- **State machines**, as classes whose methods update their fields:
  - `ChatSession`: the text negotiation screen;
  - `VoiceSession`: the voice screen;
  - `Screens.Navigator`: the screen router;
  - `Credits.CreditTable` and `Credits.AuthState`: the credit table and the browser's
    session;
  - `SetupForm.SetupForm`: the setup form;
  - `HistoryPage.HistoryPage`: the history page.
- **Shared pieces** (`Text`, `Records`, `Gateway`, `Wrappers`). JavaScript string
  behaviour (`trim`, `join`, `/i` case folding, number rendering), the records that travel
  between the parts, and the shapes of gateway requests and replies.

The network, the store and the speech service do not appear as I/O. A gateway or service
is a function parameter from the request to the reply. A store call is one step whose
failure is a boolean parameter. `JSON.parse` is a partial function, `string -> Option<Grading>`.
An asynchronous handler is split into the method that starts it, which returns what it
sends, and the method that takes the answer.

## Behaviour worth knowing

The code behaves as follows, and the model does the same.

- "I was wondering if maybe I could get a small raise" gets **Be Specific**, not Be
  Assertive. The hedge rule (which lists "maybe") comes before the weak-ask rule
  (`Tactics.WonderingMessageIsVague`).
- The data-driven chat prompt asks "Show me the numbers...". The phrase "Show me the data"
  occurs only in the voice character (`Personas.DataDrivenAsksForNumbers`,
  `RealtimeSession.DataDrivenVoiceAsksForData`).
- The grading function cuts from the first `{` to the last `}`, greedily. It does not take the first
  balanced object (`GradeEngine.ExtractJson`).
- A parsed grading is returned as it is. Its area count and score ranges are not checked,
  so a reply may carry any number of areas and any scores (`GradeEngine.ParsedGradingPassesThrough`).
- `getLikelihoodColor` is never used. The likelihood label takes the score colour of
  `likelihood / 10` instead, so at 75 it is yellow where the likelihood bands say green
  (`GradingView.LabelIgnoresLikelihoodBands`).
- `add-credits` only updates an existing row. For a user without a row, it replies that
  the balance is 3 but stores nothing (`Credits.PurchaseWithoutRowStoresNothing`).
- A credit balance is not kept at or above 0 by the store. Only `deductCredit`'s own guard
  keeps it from going negative (`Credits.AuthState.DeductCredit`).
- The first `getSession()` result leaves the balance untouched when there is no session.
  The auth-change callback sets it to 0 (`Credits.AuthState.LoadInitialSession`).

## Model

| member | source | states |
|---|---|---|
| Text.Trim | src/components/Setup.tsx:18 | `trim()` removes whitespace only, from both ends: the result is an infix with whitespace on either side of it, it neither starts nor ends with whitespace, and it is empty exactly when the input is all whitespace |
| Text.TrimPieces | src/components/NegotiationChat.tsx:127 | the composition of leading and trailing trimming has those three properties |
| Text.DecimalRoundTrip | src/components/TensionBar.tsx:33 | reading back the decimal rendering of a number gives the number |
| Text.NatToStringInjective | src/components/TensionBar.tsx:33 | distinct naturals render differently |
| Text.IntToStringInjective | src/components/TensionBar.tsx:33 | distinct integers, negative ones included, render differently |
| Text.JoinSnoc | supabase/functions/grade-conversation/index.ts:62 | joining one more part appends the separator and that part, and changes nothing before |
| Text.FoldCase | supabase/functions/negotiation-chat/index.ts:56 | the `/i` flag's folding: the result is never an ASCII capital, differs from the character only for a capital, and is a lower-case letter exactly when the character is a letter of either case; `Tactics.ApologyWins` uses it to match any letter case |
| Gateway.GatewayErrorMessage | supabase/functions/negotiation-chat/index.ts:166 | the error for an unexpected gateway status starts with `AI gateway error: ` |
| Gateway.GatewayErrorMessageNamesStatus | supabase/functions/negotiation-chat/index.ts:166 | two statuses never share an error message |
| Tactics.FirstFiring | supabase/functions/negotiation-chat/index.ts:52-102 | the index of the first rule that fires, and -1 exactly when none does; no earlier rule fires |
| Tactics.FirstMatch | supabase/functions/negotiation-chat/index.ts:52-102 | none exactly when no rule fires; otherwise the key of a rule that fires with no earlier rule firing |
| Tactics.FirstMatchPicks | supabase/functions/negotiation-chat/index.ts:52-102 | the rule that fires first decides the key |
| Tactics.TipOfFirst | supabase/functions/negotiation-chat/index.ts:52-102 | the catalogue tip of the first rule that fires, and none when no rule fires |
| Tactics.TipOfFirstMatch | supabase/functions/negotiation-chat/index.ts:9-50 | the tip returned is the catalogue entry of the key chosen |
| Tactics.AnalyzeUserMessage | supabase/functions/negotiation-chat/index.ts:52-102 | the nine rules are tried in the source's order; the result is null exactly when none fires, else the catalogue tip of the first that fires |
| Tactics.RuleKeys | supabase/functions/negotiation-chat/index.ts:55-99 | there are nine rules, none carries the deflecting key, and only the fourth carries the emotional key |
| Tactics.FirstMatchAvoids | supabase/functions/negotiation-chat/index.ts:52-102 | a key whose rules all stay silent is never chosen |
| Tactics.TacticNamesDistinct | supabase/functions/negotiation-chat/index.ts:9-50 | the ten catalogue entries have pairwise distinct tactic names |
| Tactics.TipsDistinct | supabase/functions/negotiation-chat/index.ts:9-50 | distinct keys give distinct tips |
| Tactics.NeverStayFocused | supabase/functions/negotiation-chat/index.ts:30-102 | the "Stay Focused" entry is never returned, for any message |
| Tactics.ApologyWins | supabase/functions/negotiation-chat/index.ts:56-58 | an apology word in any letter case, anywhere in any message, yields "Own Your Value" |
| Tactics.HedgeBeatsWeakAsk | supabase/functions/negotiation-chat/index.ts:61-68 | a message that hedges and also asks weakly, with no apology, gets the "Be Specific" tip |
| Tactics.UseDataOnlyWithoutEvidence | supabase/functions/negotiation-chat/index.ts:71-74 | once the first three rules are silent, a hardship message gets "Use Data" if and only if it quotes no evidence |
| Tactics.EvidenceSilencesUseData | supabase/functions/negotiation-chat/index.ts:71-102 | when the first three rules are silent and the message quotes evidence, the tip is never "Use Data" |
| Tactics.HardshipWithPercentIsEvidence | supabase/functions/negotiation-chat/index.ts:71-79 | a message with a digit directly before `%` falls through to "Strong Evidence" when the first three rules are silent |
| Tactics.RulesNeedText | supabase/functions/negotiation-chat/index.ts:56-97 | no rule's expression matches the empty string |
| Tactics.EmptyMessageGetsNoTip | supabase/functions/negotiation-chat/index.ts:52-101 | the empty message gets no tip |
| Tactics.WonderingMessageHedges | supabase/functions/negotiation-chat/index.ts:61 | "I was wondering if maybe I could get a small raise" matches the hedge rule, through "maybe" |
| Tactics.WonderingMessageAsksWeakly | supabase/functions/negotiation-chat/index.ts:66 | it also matches the weak-ask rule, through "was wondering" |
| Tactics.WonderingMessageApologizesNot | supabase/functions/negotiation-chat/index.ts:56 | it matches none of the apology words |
| Tactics.WonderingMessageIsVague | supabase/functions/negotiation-chat/index.ts:61-68 | so it gets "Be Specific" |
| ChatRelay.LastUserIndex | supabase/functions/negotiation-chat/index.ts:121 | the position of a user message with no user message after it, or -1 when there is none |
| ChatRelay.LastUserMessage | supabase/functions/negotiation-chat/index.ts:121 | none exactly when no message is the user's; otherwise the last message whose role is `user` |
| ChatRelay.LastUserIgnoresTrailing | supabase/functions/negotiation-chat/index.ts:121-122 | messages after the conversation that are not the user's change neither the chosen message nor, therefore, the tip |
| ChatRelay.RelayMessages | supabase/functions/negotiation-chat/index.ts:127-130 | one message out per message in, in order, with the same content; `boss` becomes `assistant` and every other role is unchanged |
| ChatRelay.ApiMessagesShape | supabase/functions/negotiation-chat/index.ts:125-131 | the gateway list is the system prompt followed by every message in order, one longer than the input |
| ChatRelay.ChatOutcome | supabase/functions/negotiation-chat/index.ts:112-190 | the handler's reply to a gateway answer; `ChatRelay.ChatStatusMapping` states its statuses and bodies |
| ChatRelay.ChatStatusMapping | supabase/functions/negotiation-chat/index.ts:112-190 | statuses are 200, 402, 429 or 500; 429 and 402 pass through exactly when the gateway gives them, carrying "Rate limit exceeded. Please try again in a moment." and "AI credits depleted. Please add credits to continue."; a missing key gives 500 with "LOVABLE_API_KEY is not configured" and missing content 500 with "No response from AI"; any other non-ok status gives 500 with `AI gateway error: ` and that status; every 500 carries an error body; 200 exactly with a key, an ok status and content, carrying that content and the tip |
| ChatRelay.HandleChat | supabase/functions/negotiation-chat/index.ts:104-192 | no gateway call without a key, otherwise exactly one with the model, messages, token limit and temperature of the source; the reply is the status mapping of the gateway's answer |
| GradeEngine.RenderLineSpeaker | supabase/functions/grade-conversation/index.ts:61 | a line starts with `Employee: ` exactly when the role is `user`, and with `Boss: ` otherwise; after the speaker comes the content |
| GradeEngine.RenderLine | supabase/functions/grade-conversation/index.ts:61 | one transcript line; `GradeEngine.RenderLineSpeaker` states its speaker and content |
| GradeEngine.RenderLines | supabase/functions/grade-conversation/index.ts:60-61 | one line per message, in order |
| GradeEngine.ConversationTextSnoc | supabase/functions/grade-conversation/index.ts:60-62 | one more message adds a blank line and its own line at the end, and changes nothing before |
| GradeEngine.ConversationText | supabase/functions/grade-conversation/index.ts:60-62 | the lines joined by blank lines; `GradeEngine.ConversationTextSnoc` states how it grows |
| GradeEngine.GradingUserMessageParts | supabase/functions/grade-conversation/index.ts:74 | the user message is the persona and outcome header followed by the transcript and nothing else |
| GradeEngine.GradingUserMessage | supabase/functions/grade-conversation/index.ts:74 | the grading request's user message; `GradeEngine.GradingUserMessageParts` states its parts |
| GradeEngine.RubricPieces | supabase/functions/grade-conversation/index.ts:8-43 | the rubric holds the five area names at fixed places |
| GradeEngine.RubricListsInOrder | supabase/functions/grade-conversation/index.ts:14-40 | the rubric contains each area name, each one followed by the next |
| GradeEngine.ConsecutiveNames | supabase/functions/grade-conversation/index.ts:14-40 | two consecutive area names stand together with the text between them |
| GradeEngine.FallbackMatchesRubric | supabase/functions/grade-conversation/index.ts:107-117 | the fallback has likelihood 50 and five areas scored 5, named as the rubric names them and in the rubric's order |
| GradeEngine.ExtractJson | supabase/functions/grade-conversation/index.ts:98 | none exactly when no `{` comes before a `}`; otherwise the span from the first `{` to the last `}` |
| GradeEngine.ExtractUnwraps | supabase/functions/grade-conversation/index.ts:97-100 | an object wrapped in text that holds no opening brace before it and no closing brace after it, such as a code fence, is cut out exactly |
| GradeEngine.ParsedGradingPassesThrough | supabase/functions/grade-conversation/index.ts:99-100 | a grading that parses is returned unchanged, whatever its shape |
| GradeEngine.FallbackWhenNoObject | supabase/functions/grade-conversation/index.ts:96-117 | when no span can be cut out, or the cut-out span does not parse, the fallback is returned: the converse of `GradeEngine.ParsedGradingPassesThrough` |
| GradeEngine.UnclosedBraceFallsBack | supabase/functions/grade-conversation/index.ts:97-117 | an answer with a `{` but no `}` after it, such as a truncated one, has no span to cut out and gets the fallback |
| GradeEngine.GradingOf | supabase/functions/grade-conversation/index.ts:95-118 | the grading chosen for a completion; `GradeEngine.ParsedGradingPassesThrough` and `GradeEngine.FallbackWhenNoObject` state its two cases, which between them cover every answer |
| GradeEngine.SelectGrading | supabase/functions/grade-conversation/index.ts:95-118 | the step-by-step selection gives the parsed grading or the fallback |
| GradeEngine.GradeStatusMapping | supabase/functions/grade-conversation/index.ts:81-133 | every failure before a completion is a 500, with no 429 or 402 and no fallback; a completion always gives 200 and a grading |
| GradeEngine.GradeOutcome | supabase/functions/grade-conversation/index.ts:81-133 | the handler's reply to a gateway answer; `GradeEngine.GradeStatusMapping` states its statuses |
| GradeEngine.GradeConversation | supabase/functions/grade-conversation/index.ts:45-135 | no gateway call without a key, otherwise one call with the rubric and the user message; the reply is the status mapping of the answer |
| Personas.CatalogueCoversPersonas | src/types/negotiation.ts:28-53 | three entries, one per persona, pairwise distinct identifiers, three traits each |
| Personas.FindIn | src/components/NegotiationChat.tsx:51 | `find`: none exactly when no identifier matches; otherwise the first entry that matches |
| Personas.FindKnownPersona | src/components/NegotiationChat.tsx:51 | every persona's identifier finds its own catalogue entry |
| Personas.InfoOf | src/components/NegotiationChat.tsx:51 | the non-null lookup is a catalogue entry for that persona, carrying its name |
| Personas.OverlayOpensWithHeader | src/types/negotiation.ts:68-70 | after the base prompt comes a blank line and the persona header |
| Personas.OverlayNamesPersona | src/types/negotiation.ts:67-91 | for any base and name, the prompt starts with the base, continues with the header, and names the persona right after the header's quote |
| Personas.OverlayQuotesPhrases | src/types/negotiation.ts:72-89 | for any phrases, the prompt quotes each of them |
| Personas.SystemPromptContents | src/types/negotiation.ts:55-94 | every persona prompt starts with the base prompt, contains the target raise verbatim and the persona's header, and quotes its three stock phrases |
| Personas.GetSystemPrompt | src/types/negotiation.ts:55-94 | `getSystemPrompt`; `Personas.SystemPromptContents` and `Personas.SystemPromptDistinguishesPersonas` state its contents |
| Personas.PromptContents | src/types/negotiation.ts:55-93 | the same facts for any filling of the templates |
| Personas.DataDrivenAsksForNumbers | src/types/negotiation.ts:81 | the data-driven prompt contains "Show me the numbers..." |
| Personas.SystemPromptDistinguishesPersonas | src/types/negotiation.ts:67-93 | different personas get different prompts, whatever the target raise |
| Personas.NamesDiffer | src/types/negotiation.ts:31-47 | after the shared "The ", the persona names differ |
| Personas.FeedbackPromptSections | src/types/negotiation.ts:96-112 | the feedback prompt asks for the four sections, the confidence score out of 10 among them |
| Personas.GetFeedbackPrompt | src/types/negotiation.ts:96-112 | `getFeedbackPrompt`; `Personas.FeedbackPromptSections` states its sections |
| RealtimeSession.SelectPersonality | supabase/functions/realtime-session/index.ts:22-40 | the `switch`, starting from its defaults, sets the character and voice of the persona |
| RealtimeSession.PersonalityTraits | supabase/functions/realtime-session/index.ts:22-40 | the character the `switch` picks; `RealtimeSession.VoicesPerPersona` and `RealtimeSession.DataDrivenVoiceAsksForData` state its values |
| RealtimeSession.VoiceStyle | supabase/functions/realtime-session/index.ts:23-40 | the voice the `switch` picks; `RealtimeSession.VoicesPerPersona` states its values |
| RealtimeSession.VoicesPerPersona | supabase/functions/realtime-session/index.ts:23-40 | alloy, echo and sage for the three personas; any other value gets alloy and the default character, which no persona gets |
| RealtimeSession.DataDrivenVoiceAsksForData | supabase/functions/realtime-session/index.ts:31 | the data-driven voice character asks to be shown "the data" |
| RealtimeSession.VoicePromptQuotes | supabase/functions/realtime-session/index.ts:42-44 | the instructions contain the target amount and the character verbatim, the amount first |
| RealtimeSession.VoicePrompt | supabase/functions/realtime-session/index.ts:42-53 | the session instructions; `RealtimeSession.VoicePromptQuotes` states what they quote |
| RealtimeSession.SessionStatusMapping | supabase/functions/realtime-session/index.ts:14-88 | a missing key or failed call gives 500 with an error; success passes the service's body through unchanged |
| RealtimeSession.SessionOutcome | supabase/functions/realtime-session/index.ts:14-88 | the handler's reply to the service's answer; `RealtimeSession.SessionStatusMapping` states its statuses |
| RealtimeSession.CreateSession | supabase/functions/realtime-session/index.ts:8-90 | no service call without a key, otherwise one with the model, voice and instructions; the reply is the status mapping of the answer |
| GradingView.ScoreBandMonotone | src/components/ConversationGrading.tsx:24-29 | a higher score never falls in a lower band |
| GradingView.ScoreBand | src/components/ConversationGrading.tsx:24-29 | `getScoreColor`'s band; `GradingView.ScoreBandMonotone` and `GradingView.RenderKeepsAreas` state its order and thresholds |
| GradingView.LikelihoodBandMonotone | src/components/ConversationGrading.tsx:31-36 | a higher likelihood never falls in a lower band |
| GradingView.LikelihoodBands | src/components/ConversationGrading.tsx:31-36 | `getLikelihoodColor`'s bands: green from 70, yellow from 50, orange from 30, red below, each in both directions |
| GradingView.LikelihoodBand | src/components/ConversationGrading.tsx:31-36 | `getLikelihoodColor`'s band; `GradingView.LikelihoodBands` states its thresholds and `GradingView.LikelihoodBandMonotone` its order |
| GradingView.ClassesDistinguishBands | src/components/ConversationGrading.tsx:24-36 | both colour functions give four distinct classes for the four bands |
| GradingView.LikelihoodLabelBands | src/components/ConversationGrading.tsx:59 | for a whole-number likelihood the label is green from 80, yellow from 60, orange from 40, red below, each in both directions |
| GradingView.LikelihoodLabelBand | src/components/ConversationGrading.tsx:59 | the likelihood label's band; `GradingView.LikelihoodLabelBands` states its thresholds |
| GradingView.LabelIgnoresLikelihoodBands | src/components/ConversationGrading.tsx:31-59 | at 75 the label is yellow while the unused likelihood colour would be green |
| GradingView.AreaRows | src/components/ConversationGrading.tsx:70-83 | one row per area, in order, each with its name, the colour of its score, progress `score * 10` and its feedback |
| GradingView.ProgressScale | src/components/ConversationGrading.tsx:79 | a score out of 10 gives a progress out of 100, and a better score fills more |
| GradingView.RenderKeepsAreas | src/components/ConversationGrading.tsx:54-83 | rendering keeps every area in order; an area row is green exactly from score 8 and the likelihood label exactly from 80 |
| GradingView.Render | src/components/ConversationGrading.tsx:54-83 | the grading screen; `GradingView.RenderKeepsAreas` states what it shows |
| TensionBar.LabelAgreesWithColor | src/components/TensionBar.tsx:8-20 | label and colour agree band for band, in both directions |
| TensionBar.LabelMonotone | src/components/TensionBar.tsx:8-13 | a higher level never shows a calmer label |
| TensionBar.BoundariesGoUp | src/components/TensionBar.tsx:9-12 | Tense exactly from 30 below 60 and Critical exactly from 80, so each threshold belongs to the band above |
| TensionBar.Label | src/components/TensionBar.tsx:8-13 | `getLabel`; `TensionBar.BoundariesGoUp` and `TensionBar.LabelMonotone` state its bands |
| TensionBar.Color | src/components/TensionBar.tsx:15-20 | `getColor`; `TensionBar.LabelAgreesWithColor` ties it to the label |
| TensionBar.Width | src/components/TensionBar.tsx:33 | the width ends in `%`, after at least one character |
| TensionBar.WidthNamesLevel | src/components/TensionBar.tsx:33 | distinct levels, including ones outside 0 to 100, give distinct widths: nothing is clamped |
| ChatSession.History | src/components/NegotiationChat.tsx:116-118 | the history has no `system` message and is no longer than the transcript |
| ChatSession.HistorySnoc | src/components/NegotiationChat.tsx:142-147 | appending a message appends its role and content, unless it is a system message, which is dropped |
| ChatSession.HistoryWithoutSystem | src/components/NegotiationChat.tsx:142-147 | without system messages the history is every message, in order, reduced to role and content |
| ChatSession.HistoryAppend | src/components/NegotiationChat.tsx:142-147 | for all transcripts, the history of two parts is the history of the first followed by that of the second |
| ChatSession.HistoryOfOne | src/components/NegotiationChat.tsx:142-147 | one message contributes its role and content, or nothing when it is a system message |
| ChatSession.HistoryAfterOpening | src/components/NegotiationChat.tsx:113-147 | for every transcript that opens as the screen opens it, the history is the greeting followed by the history of what came after |
| ChatSession.GreetingsDiffer | src/components/NegotiationChat.tsx:104-111 | each persona opens with its own greeting |
| ChatSession.Greeting | src/components/NegotiationChat.tsx:104-111 | `getBossGreeting`; `ChatSession.GreetingsDiffer` states that the greetings differ |
| ChatSession.OpeningHistory | src/components/NegotiationChat.tsx:57-82 | the store's copy of the opening transcript is the greeting alone |
| ChatSession.MirrorsSnoc | src/components/NegotiationChat.tsx:136-169 | appending to the transcript keeps the stored messages a prefix of the history |
| ChatSession.ChatSession.constructor | src/components/NegotiationChat.tsx:54-98 | the transcript opens with "Negotiation started" and the greeting; a signed-in user's row holds only the greeting, status active, and exists exactly when the store returns its id |
| ChatSession.ChatSession.SetInput | src/components/NegotiationChat.tsx:348 | the typed text replaces the input |
| ChatSession.ChatSession.AppendInput | src/components/NegotiationChat.tsx:126-147 | nothing changes when the trimmed input is empty or a request is in flight; otherwise the trimmed input is appended as the user's message, the input cleared, a request marked in flight, and the history returned |
| ChatSession.ChatSession.BeginSend | src/components/NegotiationChat.tsx:126-155 | the same, returning the call with the history, the system prompt and mode `negotiate` |
| ChatSession.ChatSession.UpdateConversationInDb | src/components/NegotiationChat.tsx:113-124 | nothing is written without a conversation id or when the store's write fails, whose error is ignored; otherwise the row's messages become the history |
| ChatSession.ChatSession.FinishSend | src/components/NegotiationChat.tsx:157-184 | a reply appends the boss's message right after the user's, saves the history unless the store's write fails, and replaces the tip only when one came back; a failure adds nothing; the stored messages stay a prefix of the history; no request is in flight afterwards |
| ChatSession.ChatSession.BeginEnd | src/components/NegotiationChat.tsx:187-202 | the negotiation is over, so sending is disabled; the grading call carries the history, the persona's name and the outcome |
| ChatSession.ChatSession.FinishEnd | src/components/NegotiationChat.tsx:204-229 | a grading is shown and, when the row exists and the store's write succeeds, stored with status completed; a failed grading changes neither; grading is over either way |
| VoiceSession.LineNamesSpeaker | src/components/VoiceChat.tsx:31-40 | only a finished transcript with text adds a line; the line starts with `You:` exactly when it is the employee's; a boss line is `Boss: ` followed by the transcript and nothing else, an employee line `You: ` followed by the transcript and nothing else |
| VoiceSession.Line | src/components/VoiceChat.tsx:31-40 | the line an event adds; `VoiceSession.LineNamesSpeaker` states when and with which speaker |
| VoiceSession.OtherEventsChangeNothing | src/components/VoiceChat.tsx:24-45 | an error, an unknown type or an empty transcript changes neither the speaking flag nor the transcript |
| VoiceSession.SpeakingAfter | src/components/VoiceChat.tsx:24-30 | the speaking flag after an event; `VoiceSession.OtherEventsChangeNothing` and `VoiceSession.VoiceSession.HandleMessage` state it |
| VoiceSession.LastSix | src/components/VoiceChat.tsx:134 | the last six lines, or all when there are fewer, in order |
| VoiceSession.NewLineIsShown | src/components/VoiceChat.tsx:134 | a new line is always shown at the bottom, after the lines shown before it |
| VoiceSession.VoiceSession.constructor | src/components/VoiceChat.tsx:15-19 | not connected, not connecting, not speaking, empty transcript, no connection |
| VoiceSession.VoiceSession.HandleMessage | src/components/VoiceChat.tsx:21-46 | audio delta and done set and clear the speaking flag; a finished transcript appends its line; nothing else changes |
| VoiceSession.VoiceSession.StartConversation | src/components/VoiceChat.tsx:48-61 | a connection is held; connected becomes true only when it comes up; connecting is over on every path |
| VoiceSession.VoiceSession.EndConversation | src/components/VoiceChat.tsx:63-68 | no connection, not connected, not speaking |
| Screens.ViewOf | src/pages/Index.tsx:37-70 | the landing and setup screens render as themselves; the chat and voice screens render exactly when there is a configuration, with its persona and raise; otherwise nothing renders for them |
| Screens.Navigator.Rendered | src/pages/Index.tsx:37-70 | in every state the handlers reach, some screen renders |
| Screens.Navigator.constructor | src/pages/Index.tsx:16-17 | the landing screen and no configuration |
| Screens.Navigator.EnterDojo | src/pages/Index.tsx:19-21 | the setup screen, configuration unchanged |
| Screens.Navigator.BackToLanding | src/pages/Index.tsx:23-25 | the landing screen, configuration unchanged |
| Screens.Navigator.StartNegotiation | src/pages/Index.tsx:27-30 | the choice is remembered and the voice or chat screen shown with it |
| Screens.Navigator.ExitChat | src/pages/Index.tsx:32-35 | the choice is forgotten and the setup screen shown |
| Credits.Updated | supabase/functions/add-credits/index.ts:43-46 | an update changes the user's row, if there is one, and no other row, and creates none |
| Credits.Lookup | supabase/functions/add-credits/index.ts:34-38 | a read gives the balance exactly when the row exists and the read succeeds |
| Credits.CreditTable.Select | src/hooks/useAuth.tsx:27-31 | the read of one user's balance |
| Credits.CreditTable.Update | src/hooks/useAuth.tsx:108-111 | on an error nothing is written; otherwise the update above |
| Credits.NewBalance | supabase/functions/add-credits/index.ts:40 | the balance read plus 3, or 3 when nothing was read |
| Credits.AddCreditsReply | supabase/functions/add-credits/index.ts:19-62 | the handler's reply; `Credits.AddCredits` and `Credits.PurchaseWithoutRowStoresNothing` state it |
| Credits.AddCredits | supabase/functions/add-credits/index.ts:19-62 | no user: 500 "User not authenticated" and no write; a write error: 500 and nothing stored; otherwise 200 with the new balance, which is stored in the user's row |
| Credits.PurchaseAddsThree | supabase/functions/add-credits/index.ts:40-46 | a purchase adds exactly 3 to an existing balance, two add 6, and other users' balances stay |
| Credits.PurchaseWithoutRowStoresNothing | supabase/functions/add-credits/index.ts:34-55 | for a user without a row the reply reports 3 credits while the table is unchanged |
| Credits.AuthState.constructor | src/hooks/useAuth.tsx:21-24 | no user, no session, 0 credits, loading |
| Credits.AuthState.FetchCredits | src/hooks/useAuth.tsx:26-36 | the balance changes only when a row comes back, to that row's value |
| Credits.AuthState.OnAuthStateChange | src/hooks/useAuth.tsx:39-53 | session and user follow the event; no session sets credits to 0; a session defers a fetch for its user; loading is over |
| Credits.AuthState.LoadInitialSession | src/hooks/useAuth.tsx:55-62 | the first session is taken and its user's balance fetched at once; loading is over |
| Credits.AuthState.SignOut | src/hooks/useAuth.tsx:92-97 | no user, no session, 0 credits |
| Credits.AuthState.RefreshCredits | src/hooks/useAuth.tsx:99-103 | fetches only when someone is signed in |
| Credits.AuthState.DeductCredit | src/hooks/useAuth.tsx:105-118 | succeeds exactly with a user, a positive balance and no store error; then the store receives the local balance minus 1 and the local balance drops by 1; otherwise nothing changes; a balance in sync with the store stays in sync, and a non-negative one stays non-negative |
| SetupForm.StartWith | src/components/Setup.tsx:18-24 | a start exactly when a persona is chosen and the trimmed raise is not empty, carrying that persona, the voice choice and the trimmed raise: a piece of the typed raise with non-whitespace ends, with only whitespace cut before and after it |
| SetupForm.BlankRaiseBlocksStart | src/components/Setup.tsx:18-24 | a raise of whitespace alone never starts a negotiation |
| SetupForm.SetupForm.constructor | src/components/Setup.tsx:14-16 | no persona, an empty raise, voice off |
| SetupForm.SetupForm.SelectPersona | src/components/Setup.tsx:70-71 | the new choice replaces the old, so exactly that card is highlighted |
| SetupForm.SetupForm.SetTargetRaise | src/components/Setup.tsx:91 | the typed text replaces the raise |
| SetupForm.SetupForm.SetUseVoice | src/components/Setup.tsx:110-121 | the switch sets the voice choice |
| SetupForm.SetupForm.HandleStart | src/components/Setup.tsx:20-24 | starts exactly when the gate is open, passing the trimmed raise and the voice choice, and leaves the form as it is |
| HistoryPage.LookupsFallBack | src/pages/History.tsx:46-54 | a known identifier shows its persona's name and emoji; any other shows "Boss" and the fallback emoji |
| HistoryPage.PersonaNameFor | src/pages/History.tsx:51-54 | `getPersonaName`; `HistoryPage.LookupsFallBack` states its results |
| HistoryPage.PersonaEmojiFor | src/pages/History.tsx:46-49 | `getPersonaEmoji`; `HistoryPage.LookupsFallBack` states its results |
| HistoryPage.FallbackNameIsNoPersona | src/pages/History.tsx:51-54 | the fallback name is no persona's name |
| HistoryPage.EntryOf | src/pages/History.tsx:91-121 | the entry shows the persona's emoji and name and the target raise, and a badge exactly when the conversation is graded, showing its likelihood |
| HistoryPage.Entries | src/pages/History.tsx:91-125 | one entry per conversation, in the order fetched |
| HistoryPage.BadgesCountGraded | src/pages/History.tsx:115-121 | the number of badges is the number of graded conversations |
| HistoryPage.HistoryPage.constructor | src/pages/History.tsx:19-20 | no conversations, loading |
| HistoryPage.HistoryPage.Load | src/pages/History.tsx:24-44 | without a user: go to `/auth`, fetch nothing, change nothing else; with one: that user's conversations replace the list when the query returns some, and loading is over |

## Left out

- Transport and hosting. HTTP methods, CORS preflight and headers, environment lookups
  beyond the key's presence, and the `fetch` calls themselves are all out. Gateways,
  services and the store are parameters.
- JSON. `req.json()`, `JSON.stringify` and `JSON.parse` are out; parsing is a parameter,
  and a request's fields arrive already decoded.
- The realtime audio link. WebRTC, the SDP exchange, media tracks and the data channel are
  not modelled. Whether `init` succeeds is a parameter of `StartConversation`.
- UI and timing. Rendering, CSS, toasts, scrolling, `useEffect` scheduling, the deferred
  `setTimeout` fetch (returned as a value instead) and the coaching tip's auto-hide are out.
- Message ids and timestamps from `Date.now()` and `new Date()`, and the history's date
  display and its store-side ordering (the list is shown in the order fetched).
- Concurrency. The read-then-write race on a credit balance between two sessions or
  purchases is out: every operation runs on its own.
- `add-credits` resolves the `Authorization` header to a user through the identity
  service; the model starts from the resolved user. A store error's message is taken as
  given, without the `instanceof Error` test.
- In `add-credits` a failed read counts like a missing row (both give 0 + 3), as the code
  treats them.
- `likelihood / 10` is floating-point division in the source. It is modelled as exact
  division over reals; for whole-number likelihoods the bands are stated as integers.
- Personas.SystemPromptContents: does not state that the data-driven prompt lacks the other
  personas' phrases, such as "In this economy?". That would need a scan of the whole
  literal text.
- ChatSession.ChatSession.FinishSend: saves the history of the transcript at the time of
  the reply. A re-run of the opening effect on a change of user is not modelled.
- TensionBar.Width: takes a whole-number level, as do `TensionBar.Label` and
  `TensionBar.Color`. The prop is a JavaScript number, and a fractional level, which
  renders as "37.5%", is not modelled.
- Tactics.HedgeBeatsWeakAsk: states that the tip is "Be Specific" and leaves "not Be
  Assertive" to `Tactics.TipsDistinct`, which tells the two catalogue entries apart.
- Tactics.WonderingMessageIsVague: likewise states "Be Specific"; `Tactics.TipsDistinct`
  gives "not Be Assertive".
- The UI-only pages and components (sign-in, landing, persona card, chat bubble, coaching
  tip card, payment success) are not part of this model.

=== FILE: ChatRelay.dfy ===
/** The `negotiation-chat` edge function (supabase/functions/negotiation-chat/index.ts):
    it classifies the employee's last message, forwards the conversation to the gateway
    behind the persona's system prompt, and maps the gateway's answer to an HTTP reply. */
module ChatRelay {
  import opened Wrappers
  import opened Records
  import opened Gateway
  import opened Tactics

  /** Whether a message is the employee's. */
  predicate IsUser(m: WireMessage) {
    m.role == "user"
  }

  /** The position of the last message that is the employee's, or -1 when there is none. */
  function LastUserIndex(messages: seq<WireMessage>): (k: int)
    ensures -1 <= k < |messages|
    ensures k >= 0 ==> IsUser(messages[k])
    ensures forall j :: k < j < |messages| ==> !IsUser(messages[j])
  {
    if messages == [] then -1
    else if IsUser(messages[|messages| - 1]) then |messages| - 1
    else LastUserIndex(messages[..|messages| - 1])
  }

  /** `[...messages].reverse().find(m => m.role === 'user')`. */
  function LastUserMessage(messages: seq<WireMessage>): (r: Option<WireMessage>)
    ensures r.None? <==> forall i :: 0 <= i < |messages| ==> !IsUser(messages[i])
    ensures r.Some? ==> exists i :: 0 <= i < |messages| && messages[i] == r.value
                          && IsUser(r.value)
                          && forall j :: i < j < |messages| ==> !IsUser(messages[j])
  {
    var k := LastUserIndex(messages);
    if k < 0 then None else Some(messages[k])
  }

  /** The coaching tip of the reply: the classification of the last user message, and
      none when no message is the user's. */
  function CoachingTipFor(messages: seq<WireMessage>): Option<CoachingTip> {
    match LastUserMessage(messages)
    case None => None
    case Some(m) => AnalyzeUserMessage(m.content)
  }

  /** Messages appended after the conversation do not change the classified message,
      hence the tip, unless one of them is the user's. */
  lemma {:induction false} LastUserIgnoresTrailing(messages: seq<WireMessage>, extra: seq<WireMessage>)
    requires forall j :: 0 <= j < |extra| ==> !IsUser(extra[j])
    ensures LastUserIndex(messages + extra) == LastUserIndex(messages)
    ensures LastUserMessage(messages + extra) == LastUserMessage(messages)
  {
    var all := messages + extra;
    if extra != [] {
      assert all[..|all| - 1] == messages + extra[..|extra| - 1];
      assert !IsUser(all[|all| - 1]);
      LastUserIgnoresTrailing(messages, extra[..|extra| - 1]);
      var k := LastUserIndex(messages);
      assert k >= 0 ==> all[k] == messages[k];
    } else {
      assert all == messages;
    }
  }

  /** The gateway's name for a role: the boss speaks as `assistant`. */
  function GatewayRole(role: string): string {
    if role == "boss" then "assistant" else role
  }

  /** `messages.map(...)`: every message with its role renamed for the gateway. */
  function RelayMessages(messages: seq<WireMessage>): (r: seq<WireMessage>)
    ensures |r| == |messages|
    ensures forall i :: 0 <= i < |messages| ==>
              r[i].content == messages[i].content
              && (messages[i].role == "boss" ==> r[i].role == "assistant")
              && (messages[i].role != "boss" ==> r[i].role == messages[i].role)
  {
    if messages == [] then []
    else [WireMessage(GatewayRole(messages[0].role), messages[0].content)] + RelayMessages(messages[1..])
  }

  /** `apiMessages`: the system prompt, then the conversation. */
  function ApiMessages(systemPrompt: string, messages: seq<WireMessage>): seq<WireMessage> {
    [WireMessage("system", systemPrompt)] + RelayMessages(messages)
  }

  /** The gateway sees the system prompt first and then every message in order, the boss's
      under the `assistant` role and every other role unchanged; nothing is added or lost. */
  lemma ApiMessagesShape(systemPrompt: string, messages: seq<WireMessage>)
    ensures var api := ApiMessages(systemPrompt, messages);
            && |api| == |messages| + 1
            && api[0] == WireMessage("system", systemPrompt)
            && forall i :: 0 <= i < |messages| ==>
                 api[i + 1] == WireMessage(GatewayRole(messages[i].role), messages[i].content)
  {
  }

  function ChatRequest(systemPrompt: string, messages: seq<WireMessage>): GatewayRequest {
    GatewayRequest(ChatModel, ApiMessages(systemPrompt, messages), 500, 0.8)
  }

  /** The `{ content, coachingTip }` body of a successful reply. */
  datatype ChatPayload = ChatPayload(content: string, coachingTip: Option<CoachingTip>)

  const MissingKeyMessage: string := "LOVABLE_API_KEY is not configured"
  const RateLimitMessage: string := "Rate limit exceeded. Please try again in a moment."
  const CreditsMessage: string := "AI credits depleted. Please add credits to continue."
  const NoContentMessage: string := "No response from AI"

  /** The reply the handler gives when the gateway answers `reply`. */
  function ChatOutcome(apiKey: Option<string>, messages: seq<WireMessage>, reply: GatewayReply): HttpReply<ChatPayload> {
    if !Present(apiKey) then HttpReply(500, ErrorBody(MissingKeyMessage))
    else if !IsOk(reply.status) then
      if reply.status == 429 then HttpReply(429, ErrorBody(RateLimitMessage))
      else if reply.status == 402 then HttpReply(402, ErrorBody(CreditsMessage))
      else HttpReply(500, ErrorBody(GatewayErrorMessage(reply.status)))
    else if !Present(reply.content) then HttpReply(500, ErrorBody(NoContentMessage))
    else HttpReply(200, Payload(ChatPayload(reply.content.value, CoachingTipFor(messages))))
  }

  /** The status mapping: 429 and 402 from the gateway are passed on with their own
      messages, every other failure (no key, another non-ok status, no content) is a 500,
      and only a non-empty completion gives 200, carrying that completion and the tip. */
  lemma ChatStatusMapping(apiKey: Option<string>, messages: seq<WireMessage>, reply: GatewayReply)
    ensures var r := ChatOutcome(apiKey, messages, reply);
            && r.status in {200, 402, 429, 500}
            && (r.body.Payload? <==> r.status == 200)
            && (r.status == 429 <==> Present(apiKey) && reply.status == 429)
            && (r.status == 402 <==> Present(apiKey) && reply.status == 402)
            && (r.status == 200 <==> Present(apiKey) && IsOk(reply.status) && Present(reply.content))
            && (r.status == 200 ==> r.body.value == ChatPayload(reply.content.value, CoachingTipFor(messages)))
            && (r.status == 429 ==> r.body == ErrorBody(RateLimitMessage))
            && (r.status == 402 ==> r.body == ErrorBody(CreditsMessage))
            && (r.status == 500 ==> r.body.ErrorBody?)
            && (Present(apiKey) && !IsOk(reply.status) && reply.status != 429 && reply.status != 402 ==>
                  r == HttpReply(500, ErrorBody(GatewayErrorMessage(reply.status))))
            && (!Present(apiKey) ==> r.body == ErrorBody(MissingKeyMessage))
            && (Present(apiKey) && IsOk(reply.status) && !Present(reply.content) ==> r.body == ErrorBody(NoContentMessage))
  {
  }

  /** The request handler. `apiKey` is the `LOVABLE_API_KEY` setting and `gateway` the
      reply the gateway gives to a request; `sent` lists the requests made, none when the
      key is missing. */
  method HandleChat(apiKey: Option<string>, messages: seq<WireMessage>, systemPrompt: string,
                    gateway: GatewayRequest -> GatewayReply)
    returns (response: HttpReply<ChatPayload>, sent: seq<GatewayRequest>)
    ensures sent == if Present(apiKey) then [ChatRequest(systemPrompt, messages)] else []
    ensures response == ChatOutcome(apiKey, messages, gateway(ChatRequest(systemPrompt, messages)))
  {
    if !Present(apiKey) {
      return HttpReply(500, ErrorBody(MissingKeyMessage)), [];
    }
    var coachingTip := CoachingTipFor(messages);
    var request := ChatRequest(systemPrompt, messages);
    var reply := gateway(request);
    sent := [request];
    if !IsOk(reply.status) {
      if reply.status == 429 {
        return HttpReply(429, ErrorBody(RateLimitMessage)), sent;
      }
      if reply.status == 402 {
        return HttpReply(402, ErrorBody(CreditsMessage)), sent;
      }
      return HttpReply(500, ErrorBody(GatewayErrorMessage(reply.status))), sent;
    }
    if !Present(reply.content) {
      return HttpReply(500, ErrorBody(NoContentMessage)), sent;
    }
    response := HttpReply(200, Payload(ChatPayload(reply.content.value, coachingTip)));
  }
}

=== FILE: ChatSession.dfy ===
/** The text negotiation screen (src/components/NegotiationChat.tsx): the transcript the
    employee sees, the message being typed, the request in flight, the latest coaching tip,
    the end of the negotiation and its grading, and the `conversations` row that mirrors
    the transcript. The store and the two edge functions are not called here: each
    asynchronous step is split into the method that starts it, which returns what it sends,
    and the method that takes the answer. */
module ChatSession {
  import opened Wrappers
  import opened Text
  import opened Records
  import opened Personas
  import opened Tactics

  datatype Role = User | Boss | System

  function RoleName(r: Role): string {
    match r
    case User => "user"
    case Boss => "boss"
    case System => "system"
  }

  /** A message of the on-screen transcript (its id and timestamp are not modelled). */
  datatype ChatMessage = ChatMessage(role: Role, content: string)

  /** `{ role: m.role, content: m.content }`. */
  function Wire(m: ChatMessage): WireMessage {
    WireMessage(RoleName(m.role), m.content)
  }

  /** `messages.filter(m => m.role !== 'system').map(...)`: what is sent to the edge
      functions and saved in the store. */
  function History(messages: seq<ChatMessage>): (h: seq<WireMessage>)
    ensures |h| <= |messages|
    ensures forall i :: 0 <= i < |h| ==> h[i].role != "system"
  {
    if messages == [] then []
    else
      var last := messages[|messages| - 1];
      History(messages[..|messages| - 1]) + (if last.role == System then [] else [Wire(last)])
  }

  /** Appending a message appends its wire form to the history, unless it is a system
      message, which the history leaves out. */
  lemma HistorySnoc(messages: seq<ChatMessage>, m: ChatMessage)
    ensures m.role != System ==> History(messages + [m]) == History(messages) + [Wire(m)]
    ensures m.role == System ==> History(messages + [m]) == History(messages)
  {
    assert (messages + [m])[..|messages|] == messages;
  }

  /** The history of a transcript is the history of its first part followed by that of
      the rest: every non-system message keeps its place, whatever precedes it. */
  lemma {:induction false} HistoryAppend(a: seq<ChatMessage>, b: seq<ChatMessage>)
    ensures History(a + b) == History(a) + History(b)
  {
    if b != [] {
      var init, last := b[..|b| - 1], b[|b| - 1];
      var ai := a + init;
      var w: seq<WireMessage> := if last.role == System then [] else [Wire(last)];
      assert History(ai + [last]) == History(ai) + w by { HistorySnoc(ai, last); }
      assert History(init + [last]) == History(init) + w by { HistorySnoc(init, last); }
      assert History(ai) == History(a) + History(init) by { HistoryAppend(a, init); }
      assert a + b == ai + [last];
      assert init + [last] == b;
    } else {
      assert a + b == a;
    }
  }

  /** A single message contributes its wire form, or nothing when it is a system message. */
  lemma HistoryOfOne(m: ChatMessage)
    ensures History([m]) == if m.role == System then [] else [Wire(m)]
  {
    HistorySnoc([], m);
    assert [] + [m] == [m];
  }

  /** Without system messages the history is every message, in order, with only its role
      and content. */
  lemma {:induction false} HistoryWithoutSystem(messages: seq<ChatMessage>)
    requires forall i :: 0 <= i < |messages| ==> messages[i].role != System
    ensures |History(messages)| == |messages|
    ensures forall i :: 0 <= i < |messages| ==> History(messages)[i] == Wire(messages[i])
  {
    if messages != [] {
      var init := messages[..|messages| - 1];
      HistoryWithoutSystem(init);
      HistorySnoc(init, messages[|messages| - 1]);
      assert init + [messages[|messages| - 1]] == messages;
    }
  }

  /** `getBossGreeting`. Each greeting is written as a sum of short literals, which the
      verifier handles far more cheaply than one long literal. */
  function Greeting(p: BossPersona): string {
    match p
    case BudgetBlocker =>
      "Hey! Come on in," + " have a seat." + " So, you wanted" + " to chat about" + " your" +
      " compensation? I" + " saw your" + " meeting" + " request..." + " look, I really" +
      " appreciate you" + " bringing this" + " up directly" + " with me. So," +
      " what's on your" + " mind?"
    case DataDriven =>
      "You requested" + " this meeting to" + " discuss" + " compensation. I" +
      " have exactly 15" + " minutes. Let's" + " get straight to" + " it - what" +
      " specifically" + " are you" + " proposing?"
    case Gaslighter =>
      "Oh, a meeting" + " about your" + " salary? Really?" + " Okay, well... I" +
      " suppose we can" + " talk. Though I" + " have to say, I" + " wasn't" +
      " expecting this" + " from you. Go" + " ahead, what is" + " it?"
  }

  /** Each persona opens with its own greeting. */
  lemma GreetingsDiffer(p: BossPersona, q: BossPersona)
    requires p != q
    ensures Greeting(p) != Greeting(q)
  {
    assert Greeting(p)[0] != Greeting(q)[0];
  }

  /** The transcript shown when the negotiation opens with `greeting`. */
  function OpeningTranscript(greeting: string): seq<ChatMessage> {
    [ChatMessage(System, "Negotiation started"), ChatMessage(Boss, greeting)]
  }

  /** The row inserted when the negotiation opens. */
  function OpeningRow(user: string, persona: BossPersona, targetRaise: string, greeting: string): ConversationRow {
    ConversationRow(user, PersonaId(persona), targetRaise, [WireMessage("boss", greeting)], Active, None)
  }

  /** The store's copy of the opening transcript is the greeting alone. */
  lemma OpeningHistory(greeting: string)
    ensures History(OpeningTranscript(greeting)) == [WireMessage("boss", greeting)]
  {
    HistorySnoc([ChatMessage(System, "Negotiation started")], ChatMessage(Boss, greeting));
    HistorySnoc([], ChatMessage(System, "Negotiation started"));
    assert [] + [ChatMessage(System, "Negotiation started")] == [ChatMessage(System, "Negotiation started")];
  }

  /** For every real transcript, which opens with the system notice and the greeting, the
      history is the greeting followed by the history of whatever was said after it. */
  lemma HistoryAfterOpening(greeting: string, rest: seq<ChatMessage>)
    ensures History(OpeningTranscript(greeting) + rest) == [WireMessage("boss", greeting)] + History(rest)
  {
    HistoryAppend(OpeningTranscript(greeting), rest);
    OpeningHistory(greeting);
  }

  /** A row exists exactly when its id is known, and it holds a prefix of the history: the
      messages are saved only after a reply, so a failed send leaves the store one message
      behind until the next successful one. */
  ghost predicate Mirrors(conversationId: Option<string>, row: Option<ConversationRow>, messages: seq<ChatMessage>) {
    && (conversationId.Some? <==> row.Some?)
    && (row.Some? ==> row.value.messages <= History(messages))
  }

  /** Appending a message to the transcript keeps the stored row a prefix of the history. */
  lemma MirrorsSnoc(conversationId: Option<string>, row: Option<ConversationRow>, messages: seq<ChatMessage>, m: ChatMessage)
    requires Mirrors(conversationId, row, messages)
    ensures Mirrors(conversationId, row, messages + [m])
  {
    HistorySnoc(messages, m);
  }

  /** The body of a `negotiation-chat` call. */
  datatype ChatCall = ChatCall(messages: seq<WireMessage>, systemPrompt: string, mode: string)

  /** What the call gives back: the boss's reply with the optional tip, or a failure
      (an invocation error or an `error` field). */
  datatype SendReply = Replied(content: string, coachingTip: Option<CoachingTip>) | Failed

  datatype Outcome = Won | GaveUp

  function OutcomeName(o: Outcome): string {
    match o
    case Won => "won"
    case GaveUp => "gave_up"
  }

  /** The body of a `grade-conversation` call. */
  datatype GradeCall = GradeCall(messages: seq<WireMessage>, persona: string, outcome: string)

  class ChatSession {
    const persona: BossPersona
    const targetRaise: string
    /** `getBossGreeting(persona)`. */
    const greeting: string
    var messages: seq<ChatMessage>
    var input: string
    var isLoading: bool
    var coachingTip: Option<CoachingTip>
    var conversationId: Option<string>
    var isEnded: bool
    var isGrading: bool
    var grading: Option<Grading>
    /** The `conversations` row whose id is `conversationId`. */
    var row: Option<ConversationRow>

    /** `BOSS_PERSONAS.find(p => p.id === persona)!`. */
    function PersonaInfo(): PersonaInfo {
      InfoOf(persona)
    }

    /** `getSystemPrompt(persona, targetRaise)`. */
    function SystemPrompt(): string {
      GetSystemPrompt(persona, targetRaise)
    }

    ghost predicate Valid()
      reads this
    {
      Mirrors(conversationId, row, messages)
    }

    /** Mounting the screen: the opening transcript, and, for a signed-in `user`, the
        inserted row when the store returns its id `insertedId`. */
    constructor (persona: BossPersona, targetRaise: string, user: Option<string>, insertedId: Option<string>)
      ensures Valid()
      ensures this.persona == persona && this.targetRaise == targetRaise
      ensures greeting == Greeting(persona)
      ensures messages == OpeningTranscript(greeting)
      ensures input == "" && !isLoading && coachingTip.None? && !isEnded && !isGrading && grading.None?
      ensures conversationId == if user.Some? then insertedId else None
      ensures row == if user.Some? && insertedId.Some?
                     then Some(OpeningRow(user.value, persona, targetRaise, greeting))
                     else None
    {
      this.persona := persona;
      this.targetRaise := targetRaise;
      var opening := Greeting(persona);
      greeting := opening;
      messages := OpeningTranscript(opening);
      input := "";
      isLoading := false;
      coachingTip := None;
      isEnded := false;
      isGrading := false;
      grading := None;
      conversationId := None;
      row := None;
      new;
      OpeningHistory(greeting);
      if user.Some? {
        if insertedId.Some? {
          row := Some(OpeningRow(user.value, persona, targetRaise, greeting));
        }
        conversationId := insertedId;
      }
    }

    method SetInput(text: string)
      modifies this`input
      ensures input == text
    {
      input := text;
    }

    /** Whether the send button is enabled. */
    predicate CanSend()
      reads this
    {
      Trim(input) != "" && !isLoading && !isEnded
    }

    /** The state change at the start of `sendMessage`: unless the trimmed input is empty
        or a request is in flight, append the trimmed input as the employee's message,
        clear the input and mark a request in flight; return the history to send. */
    method AppendInput() returns (history: Option<seq<WireMessage>>)
      requires Valid()
      modifies this`messages, this`input, this`isLoading
      ensures Valid()
      ensures Trim(old(input)) == "" || old(isLoading) ==>
                history.None? && messages == old(messages) && input == old(input) && isLoading == old(isLoading)
      ensures Trim(old(input)) != "" && !old(isLoading) ==>
                && messages == old(messages) + [ChatMessage(User, Trim(old(input)))]
                && input == ""
                && isLoading
                && history == Some(History(messages))
    {
      var text := Trim(input);
      if text == "" || isLoading {
        return None;
      }
      var userMessage := ChatMessage(User, text);
      var newMessages := messages + [userMessage];
      MirrorsSnoc(conversationId, row, messages, userMessage);
      messages := newMessages;
      input := "";
      isLoading := true;
      history := Some(History(newMessages));
    }

    /** The first half of `sendMessage`: the state change above, and the call it makes. */
    method BeginSend() returns (call: Option<ChatCall>)
      requires Valid()
      modifies this`messages, this`input, this`isLoading
      ensures Valid()
      ensures Trim(old(input)) == "" || old(isLoading) ==>
                call.None? && messages == old(messages) && input == old(input) && isLoading == old(isLoading)
      ensures Trim(old(input)) != "" && !old(isLoading) ==>
                && messages == old(messages) + [ChatMessage(User, Trim(old(input)))]
                && input == ""
                && isLoading
                && call == Some(ChatCall(History(messages), SystemPrompt(), "negotiate"))
    {
      var conversationHistory := AppendInput();
      if conversationHistory.None? {
        return None;
      }
      call := Some(ChatCall(conversationHistory.value, SystemPrompt(), "negotiate"));
    }

    /** `updateConversationInDb`: without a conversation id nothing is written; otherwise
        the row's messages become the history of `newMessages`, unless the store's write
        fails (`writeFails`), whose error the screen ignores. */
    method UpdateConversationInDb(newMessages: seq<ChatMessage>, writeFails: bool)
      requires conversationId.Some? <==> row.Some?
      modifies this`row
      ensures conversationId.Some? <==> row.Some?
      ensures row == if conversationId.None? || writeFails then old(row)
                     else Some(old(row).value.(messages := History(newMessages)))
    {
      if conversationId.None? {
        return;
      }
      if !writeFails {
        row := Some(row.value.(messages := History(newMessages)));
      }
    }

    /** The second half of `sendMessage`. A reply appends the boss's message right after
        the employee's, saves the history and replaces the tip only when one came back; a
        failure keeps the employee's message and adds nothing. A failed store write
        (`writeFails`) leaves the row as it was, one reply behind. Either way the request is
        no longer in flight. */
    method FinishSend(reply: SendReply, writeFails: bool)
      requires Valid()
      modifies this`messages, this`coachingTip, this`isLoading, this`row
      ensures Valid()
      ensures !isLoading
      ensures reply.Replied? ==>
                && messages == old(messages) + [ChatMessage(Boss, reply.content)]
                && row == (if old(row).Some? && !writeFails then Some(old(row).value.(messages := History(messages)))
                           else old(row))
                && coachingTip == (if reply.coachingTip.Some? then reply.coachingTip else old(coachingTip))
      ensures reply.Failed? ==>
                messages == old(messages) && row == old(row) && coachingTip == old(coachingTip)
    {
      if reply.Replied? {
        var bossMessage := ChatMessage(Boss, reply.content);
        var updatedMessages := messages + [bossMessage];
        MirrorsSnoc(conversationId, row, messages, bossMessage);
        messages := updatedMessages;
        UpdateConversationInDb(updatedMessages, writeFails);
        if reply.coachingTip.Some? {
          coachingTip := reply.coachingTip;
        }
      }
      isLoading := false;
    }

    /** The first half of `handleEndConversation`: the negotiation is over, which disables
        sending, and the grading call carries the history, the persona's name and the
        outcome. */
    method BeginEnd(outcome: Outcome) returns (call: GradeCall)
      modifies this`isEnded, this`isGrading
      ensures isEnded && isGrading && !CanSend()
      ensures call == GradeCall(History(messages), PersonaName(persona), OutcomeName(outcome))
    {
      isEnded := true;
      isGrading := true;
      var conversationHistory := History(messages);
      call := GradeCall(conversationHistory, PersonaInfo().name, OutcomeName(outcome));
    }

    /** The second half of `handleEndConversation`: a grading is shown and, when the row
        exists and the store's write succeeds (`!writeFails`), stored with the status
        `completed`; a failed grading changes neither. Grading is over either way. */
    method FinishEnd(reply: Option<Grading>, writeFails: bool)
      requires Valid()
      modifies this`grading, this`isGrading, this`row
      ensures Valid()
      ensures !isGrading
      ensures reply.Some? ==>
                && grading == reply
                && row == (if old(row).Some? && !writeFails then Some(old(row).value.(status := Completed, grading := reply))
                           else old(row))
      ensures reply.None? ==> grading == old(grading) && row == old(row)
    {
      if reply.Some? {
        grading := reply;
        if conversationId.Some? && !writeFails {
          row := Some(row.value.(status := Completed, grading := reply));
        }
      }
      isGrading := false;
    }
  }
}

=== FILE: Credits.dfy ===
/** Practice credits: the `user_credits` table, the browser's copy of the balance and its
    session state (src/hooks/useAuth.tsx), and the `add-credits` edge function
    (supabase/functions/add-credits/index.ts). Each store call is one step; whether it
    fails is a parameter. */
module Credits {
  import opened Wrappers
  import opened Gateway

  datatype User = User(id: string)

  /** An auth session; the model keeps only its user. */
  datatype Session = Session(user: User)

  /** What `.update({ credits }).eq('user_id', id)` leaves in the table: the row of `id`, if
      there is one, now holds `credits`; no row is created and no other row changes. */
  function Updated(rows: map<string, int>, id: string, credits: int): (r: map<string, int>)
    ensures r.Keys == rows.Keys
    ensures id in rows ==> r[id] == credits
    ensures forall other :: other in rows && other != id ==> r[other] == rows[other]
  {
    if id in rows then rows[id := credits] else rows
  }

  /** What a `select('credits')` of one user's row returns: the balance, or nothing when the
      row is missing or the read fails. */
  function Lookup(rows: map<string, int>, id: string, readFails: bool): (r: Option<int>)
    ensures r.Some? <==> !readFails && id in rows
    ensures r.Some? ==> r.value == rows[id]
  {
    if !readFails && id in rows then Some(rows[id]) else None
  }

  /** The `user_credits` table, one balance per user id. */
  class CreditTable {
    var rows: map<string, int>

    constructor (rows: map<string, int>)
      ensures this.rows == rows
    {
      this.rows := rows;
    }

    method Select(id: string, readFails: bool) returns (data: Option<int>)
      ensures data == Lookup(rows, id, readFails)
    {
      data := if !readFails && id in rows then Some(rows[id]) else None;
    }

    /** Returns whether the store reported an error; on an error nothing is written. */
    method Update(id: string, credits: int, writeFails: bool) returns (error: bool)
      modifies this
      ensures error == writeFails
      ensures rows == if writeFails then old(rows) else Updated(old(rows), id, credits)
    {
      error := writeFails;
      if !writeFails {
        rows := if id in rows then rows[id := credits] else rows;
      }
    }
  }

  /** The number of credits one purchase adds. */
  const CreditsPerPurchase: int := 3

  /** `(currentCredits?.credits || 0) + 3`: a missing row, a failed read and a balance of 0
      all count as 0. */
  function NewBalance(current: Option<int>): (n: int)
    ensures current.Some? ==> n == current.value + CreditsPerPurchase
    ensures current.None? ==> n == CreditsPerPurchase
  {
    (if current.Some? && current.value != 0 then current.value else 0) + CreditsPerPurchase
  }

  const NotAuthenticatedMessage: string := "User not authenticated"

  /** The reply of `add-credits`: the user the token names (if any), the read and the
      outcome of the write (an error message, or none on success). */
  function AddCreditsReply(user: Option<User>, current: Option<int>, writeError: Option<string>): HttpReply<int> {
    if user.None? then HttpReply(500, ErrorBody(NotAuthenticatedMessage))
    else if writeError.Some? then HttpReply(500, ErrorBody(writeError.value))
    else HttpReply(200, Payload(NewBalance(current)))
  }

  /** The `add-credits` handler after the token has been resolved to `user`: read the
      balance, add three, write it back. */
  method AddCredits(user: Option<User>, table: CreditTable, readFails: bool, writeError: Option<string>)
    returns (response: HttpReply<int>)
    modifies table
    ensures user.None? ==> response == HttpReply(500, ErrorBody(NotAuthenticatedMessage))
    ensures user.Some? ==> response == AddCreditsReply(user, Lookup(old(table.rows), user.value.id, readFails), writeError)
    ensures table.rows == if user.None? || writeError.Some? then old(table.rows)
                          else Updated(old(table.rows), user.value.id, NewBalance(Lookup(old(table.rows), user.value.id, readFails)))
  {
    if user.None? {
      return HttpReply(500, ErrorBody(NotAuthenticatedMessage));
    }
    var current := table.Select(user.value.id, readFails);
    var newCredits := (if current.Some? && current.value != 0 then current.value else 0) + CreditsPerPurchase;
    var error := table.Update(user.value.id, newCredits, writeError.Some?);
    if error {
      return HttpReply(500, ErrorBody(writeError.value));
    }
    response := HttpReply(200, Payload(newCredits));
  }

  /** The table after a successful `add-credits` for `id`. */
  function AfterPurchase(rows: map<string, int>, id: string): map<string, int> {
    Updated(rows, id, NewBalance(Lookup(rows, id, false)))
  }

  /** A purchase adds exactly three credits to an existing balance and leaves every other
      user's balance alone; two purchases add six. */
  lemma PurchaseAddsThree(rows: map<string, int>, id: string)
    requires id in rows
    ensures AfterPurchase(rows, id)[id] == rows[id] + 3
    ensures AfterPurchase(AfterPurchase(rows, id), id)[id] == rows[id] + 6
    ensures forall other :: other in rows && other != id ==> AfterPurchase(rows, id)[other] == rows[other]
  {
    var once := AfterPurchase(rows, id);
    assert once[id] == rows[id] + 3;
    assert Lookup(once, id, false) == Some(rows[id] + 3);
  }

  /** For a user without a row the reply still reports three credits, yet the table is left
      as it was: the update only changes existing rows. */
  lemma PurchaseWithoutRowStoresNothing(rows: map<string, int>, id: string)
    requires id !in rows
    ensures AddCreditsReply(Some(User(id)), Lookup(rows, id, false), None) == HttpReply(200, Payload(3))
    ensures AfterPurchase(rows, id) == rows
  {
  }

  /** The browser's authentication state and its copy of the balance (`AuthProvider`). */
  class AuthState {
    var user: Option<User>
    var session: Option<Session>
    var credits: int
    var loading: bool

    constructor ()
      ensures user == None && session == None && credits == 0 && loading
    {
      user := None;
      session := None;
      credits := 0;
      loading := true;
    }

    /** The local balance agrees with the stored one for the signed-in user. */
    predicate InSync(rows: map<string, int>)
      reads this
    {
      user.Some? && user.value.id in rows && rows[user.value.id] == credits
    }

    /** `fetchCredits`: takes the stored balance when a row comes back, and otherwise keeps
        the one it had. */
    method FetchCredits(id: string, table: CreditTable, readFails: bool)
      modifies this`credits
      ensures credits == Lookup(table.rows, id, readFails).GetOr(old(credits))
    {
      var data := table.Select(id, readFails);
      if data.Some? {
        credits := data.value;
      }
    }

    /** The `onAuthStateChange` callback. With a signed-in user the balance is fetched
        later, from a timer; the user id to fetch for is returned instead. */
    method OnAuthStateChange(newSession: Option<Session>) returns (deferredFetch: Option<string>)
      modifies this
      ensures session == newSession
      ensures user == if newSession.Some? then Some(newSession.value.user) else None
      ensures credits == if newSession.Some? then old(credits) else 0
      ensures deferredFetch == if newSession.Some? then Some(newSession.value.user.id) else None
      ensures !loading
    {
      session := newSession;
      user := if newSession.Some? then Some(newSession.value.user) else None;
      deferredFetch := None;
      if newSession.Some? {
        deferredFetch := Some(newSession.value.user.id);
      } else {
        credits := 0;
      }
      loading := false;
    }

    /** The first `getSession()` result: the balance is fetched at once, and, unlike the
        callback, a missing session leaves the balance as it was. */
    method LoadInitialSession(current: Option<Session>, table: CreditTable, readFails: bool)
      modifies this
      ensures session == current
      ensures user == if current.Some? then Some(current.value.user) else None
      ensures credits == if current.Some? then Lookup(table.rows, current.value.user.id, readFails).GetOr(old(credits))
                         else old(credits)
      ensures !loading
    {
      session := current;
      user := if current.Some? then Some(current.value.user) else None;
      if current.Some? {
        FetchCredits(current.value.user.id, table, readFails);
      }
      loading := false;
    }

    /** `signOut`. */
    method SignOut()
      modifies this`user, this`session, this`credits
      ensures user == None && session == None && credits == 0
    {
      user := None;
      session := None;
      credits := 0;
    }

    /** `refreshCredits`: fetches only when someone is signed in. */
    method RefreshCredits(table: CreditTable, readFails: bool)
      modifies this`credits
      ensures credits == if user.Some? then Lookup(table.rows, user.value.id, readFails).GetOr(old(credits))
                         else old(credits)
    {
      if user.Some? {
        FetchCredits(user.value.id, table, readFails);
      }
    }

    /** `deductCredit`: spends one credit, writing `credits - 1` to the user's row. */
    method DeductCredit(table: CreditTable, writeFails: bool) returns (ok: bool)
      modifies this`credits, table
      ensures ok <==> user.Some? && old(credits) > 0 && !writeFails
      ensures credits == if ok then old(credits) - 1 else old(credits)
      ensures table.rows == if user.Some? && old(credits) > 0 && !writeFails
                            then Updated(old(table.rows), user.value.id, old(credits) - 1)
                            else old(table.rows)
      ensures old(InSync(table.rows)) ==> InSync(table.rows)
      ensures old(credits) >= 0 ==> credits >= 0
    {
      if user.None? || credits <= 0 {
        return false;
      }
      var error := table.Update(user.value.id, credits - 1, writeFails);
      if !error {
        credits := credits - 1;
        return true;
      }
      return false;
    }
  }
}

=== FILE: Gateway.dfy ===
/** What the edge functions send to and get back from the chat-completion gateway, and the
    HTTP replies they produce. The network itself is not modelled: a gateway is a function
    from the request to the reply it returns. */
module Gateway {
  import opened Wrappers
  import opened Records
  import opened Text

  /** The JSON body POSTed to the gateway. */
  datatype GatewayRequest = GatewayRequest(
    model: string,
    messages: seq<WireMessage>,
    maxTokens: nat,
    temperature: real)

  /** What the edge function reads from the gateway's answer: the HTTP status and
      `data.choices?.[0]?.message?.content`. */
  datatype GatewayReply = GatewayReply(status: int, content: Option<string>)

  /** `response.ok`. */
  predicate IsOk(status: int) {
    200 <= status <= 299
  }

  /** JavaScript truthiness of an optional string: present and non-empty. */
  predicate Present(s: Option<string>) {
    s.Some? && s.value != ""
  }

  /** The JSON body of an edge-function reply: the payload, or `{ error }`. */
  datatype Body<T> = Payload(value: T) | ErrorBody(error: string)

  datatype HttpReply<T> = HttpReply(status: int, body: Body<T>)

  const ChatModel: string := "google/gemini-2.5-flash"

  /** The message of the error thrown on any other non-ok gateway status. */
  function GatewayErrorMessage(status: int): (e: string)
    ensures StartsWith(e, "AI gateway error: ")
  {
    "AI gateway error: " + IntToString(status)
  }

  /** The status is the last thing in the message, so two statuses never share one. */
  lemma GatewayErrorMessageNamesStatus(s1: int, s2: int)
    requires GatewayErrorMessage(s1) == GatewayErrorMessage(s2)
    ensures s1 == s2
  {
    var p := "AI gateway error: ";
    assert IntToString(s1) == GatewayErrorMessage(s1)[|p|..];
    assert IntToString(s2) == GatewayErrorMessage(s2)[|p|..];
    IntToStringInjective(s1, s2);
  }
}

=== FILE: GradeEngine.dfy ===
/** The `grade-conversation` edge function (supabase/functions/grade-conversation/index.ts):
    it renders the transcript, asks the gateway for a grading against a five-area rubric,
    cuts the JSON object out of the answer and parses it, falling back to a fixed grading
    when that fails. `JSON.parse` is a parameter: a partial function from text to grading. */
module GradeEngine {
  import opened Wrappers
  import opened Text
  import opened Records
  import opened Gateway

  /** How a message is attributed in the transcript. */
  function Speaker(role: string): string {
    if role == "user" then "Employee" else "Boss"
  }

  function RenderLine(m: WireMessage): string {
    Speaker(m.role) + ": " + m.content
  }

  /** A line is the employee's exactly when the message is the user's, and the boss's
      otherwise; the rest of the line is the message content. */
  lemma RenderLineSpeaker(m: WireMessage)
    ensures StartsWith(RenderLine(m), "Employee: ") <==> m.role == "user"
    ensures m.role != "user" ==> StartsWith(RenderLine(m), "Boss: ")
    ensures m.role == "user" ==> RenderLine(m)[|"Employee: "|..] == m.content
    ensures m.role != "user" ==> RenderLine(m)[|"Boss: "|..] == m.content
  {
    var line := RenderLine(m);
    if m.role != "user" {
      assert line == "Boss: " + m.content;
      assert line[..|"Boss: "|] == "Boss: ";
      assert line[0] == 'B';
    }
  }

  /** `messages.map(...)`, one line per message in order. */
  function RenderLines(messages: seq<WireMessage>): (lines: seq<string>)
    ensures |lines| == |messages|
    ensures forall i :: 0 <= i < |messages| ==> lines[i] == RenderLine(messages[i])
  {
    if messages == [] then [] else [RenderLine(messages[0])] + RenderLines(messages[1..])
  }

  /** `conversationText`: the lines joined by a blank line. */
  function ConversationText(messages: seq<WireMessage>): string {
    Join(RenderLines(messages), "\n\n")
  }

  /** One more message adds a blank line and its line at the end, and changes nothing
      before. */
  lemma ConversationTextSnoc(messages: seq<WireMessage>, m: WireMessage)
    ensures ConversationText(messages + [m]) ==
              if messages == [] then RenderLine(m)
              else ConversationText(messages) + "\n\n" + RenderLine(m)
  {
    assert RenderLines(messages + [m]) == RenderLines(messages) + [RenderLine(m)];
    if messages != [] {
      JoinSnoc(RenderLines(messages), RenderLine(m), "\n\n");
    }
  }

  /** The header of the user message sent to the gateway. */
  function RequestHeader(persona: string, outcome: string): string {
    "Boss persona: " + persona + "\nOutcome: " + outcome + "\n\nConversation:\n"
  }

  function GradingUserMessage(persona: string, outcome: string, messages: seq<WireMessage>): string {
    RequestHeader(persona, outcome) + ConversationText(messages)
  }

  /** The user message is the persona and outcome header followed by the transcript and
      nothing else. */
  lemma GradingUserMessageParts(persona: string, outcome: string, messages: seq<WireMessage>)
    ensures var text := GradingUserMessage(persona, outcome, messages);
            && StartsWith(text, "Boss persona: " + persona + "\nOutcome: ")
            && StartsWith(text, RequestHeader(persona, outcome))
            && text[|RequestHeader(persona, outcome)|..] == ConversationText(messages)
  {
    var text := GradingUserMessage(persona, outcome, messages);
    var h := RequestHeader(persona, outcome);
    assert text[..|h|] == h;
    var start := "Boss persona: " + persona + "\nOutcome: ";
    assert h == start + (outcome + "\n\nConversation:\n");
    assert text[..|start|] == h[..|start|] == start;
  }

  /** The rubric's text around the five area names. */
  const RubricHead: string :=
    "You are an expert negotiation coach. Analyze the salary negotiation conversation and provide detailed grading.\n\n"
    + "Return your response as valid JSON with this exact structure:\n{\n"
    + "  \"likelihood_of_success\": number (0-100),\n"
    + "  \"overall_summary\": \"2-3 sentence summary of how the negotiation went\",\n"
    + "  \"areas\": [\n    {\n      \"name\": \""
  const RubricFirstGap: string :=
    "\",\n      \"score\": number (1-10),\n"
    + "      \"feedback\": \"specific feedback on this area, include what was done well and what could improve\"\n"
    + "    },\n    {\n      \"name\": \""
  /** The second area's name line ends in a stray space after its comma. */
  const RubricSecondGap: string :=
    "\", \n      \"score\": number (1-10),\n"
    + "      \"feedback\": \"specific feedback on this area\"\n"
    + "    },\n    {\n      \"name\": \""
  const RubricGap: string :=
    "\",\n      \"score\": number (1-10),\n"
    + "      \"feedback\": \"specific feedback on this area\"\n"
    + "    },\n    {\n      \"name\": \""
  const RubricTail: string :=
    "\",\n      \"score\": number (1-10),\n"
    + "      \"feedback\": \"specific feedback on this area\"\n"
    + "    }\n  ]\n}\n\nBe specific with examples from the conversation. Be encouraging but honest."

  /** The area names as the rubric lists them. */
  const RubricNames: seq<string> :=
    ["Confidence & Assertiveness", "Evidence & Data Usage", "Objection Handling",
     "Value Articulation", "Closing Technique"]

  /** The rubric as pieces: area name `k` is piece `2k+1`. */
  function RubricPieces(names: seq<string>): (pieces: seq<string>)
    requires |names| == 5
    ensures |pieces| == 11 && forall k :: 0 <= k < 5 ==> pieces[2 * k + 1] == names[k]
  {
    [RubricHead, names[0], RubricFirstGap, names[1], RubricSecondGap, names[2],
     RubricGap, names[3], RubricGap, names[4], RubricTail]
  }

  /** `GRADING_PROMPT`. */
  const GradingPrompt: string := Concat(RubricPieces(RubricNames))

  /** Whatever the five names, the rubric lists each of them, and each one before the
      next. */
  lemma RubricListsInOrder(names: seq<string>)
    requires |names| == 5
    ensures forall k :: 0 <= k < 5 ==> Contains(Concat(RubricPieces(names)), names[k])
    ensures forall k :: 0 <= k < 4 ==>
              Contains(Concat(RubricPieces(names)), names[k] + RubricPieces(names)[2 * k + 2] + names[k + 1])
  {
    var pieces := RubricPieces(names);
    forall k | 0 <= k < 5 ensures Contains(Concat(pieces), names[k]) {
      ConcatContainsPiece(pieces, 2 * k + 1);
    }
    forall k | 0 <= k < 4 ensures Contains(Concat(pieces), names[k] + pieces[2 * k + 2] + names[k + 1]) {
      ConsecutiveNames(pieces, names, k);
    }
  }

  /** Name `k`, the text after it and name `k + 1` stand together in the rubric. */
  lemma ConsecutiveNames(pieces: seq<string>, names: seq<string>, k: nat)
    requires |names| == 5 && k < 4 && pieces == RubricPieces(names)
    ensures Contains(Concat(pieces), names[k] + pieces[2 * k + 2] + names[k + 1])
  {
    ConcatContainsRun(pieces, 2 * k + 1, 3);
    var run := pieces[2 * k + 1..2 * k + 4];
    assert run == [names[k], pieces[2 * k + 2], names[k + 1]];
    ConcatThree(names[k], pieces[2 * k + 2], names[k + 1]);
  }

  /** The grading used when no JSON object can be cut out or parsed. */
  const FallbackGrading: Grading := Grading(50,
    "The negotiation showed some good elements but could be improved with more specific evidence and confident delivery.",
    [Area("Confidence & Assertiveness", 5, "Room for improvement in delivering your ask with conviction."),
     Area("Evidence & Data Usage", 5, "Consider using more specific metrics and achievements."),
     Area("Objection Handling", 5, "Practice acknowledging concerns while redirecting to your value."),
     Area("Value Articulation", 5, "Focus on the impact of your contributions."),
     Area("Closing Technique", 5, "Work on a clear call-to-action at the end.")])

  /** The fallback gives a 50% likelihood and five areas scored 5, named as the rubric
      names them and in the rubric's order. */
  lemma FallbackMatchesRubric()
    ensures FallbackGrading.likelihood == 50
    ensures |FallbackGrading.areas| == |RubricNames| == 5
    ensures forall k :: 0 <= k < 5 ==> FallbackGrading.areas[k].score == 5
    ensures forall k :: 0 <= k < 5 ==> FallbackGrading.areas[k].name == RubricNames[k]
    ensures forall k :: 0 <= k < 4 ==>
              Contains(GradingPrompt, RubricNames[k] + RubricPieces(RubricNames)[2 * k + 2] + RubricNames[k + 1])
  {
    RubricListsInOrder(RubricNames);
  }

  /** The first index of `c` in `s`. */
  function FirstIndexOf(s: string, c: char): (r: Option<nat>)
    ensures r.None? <==> c !in s
    ensures r.Some? ==> r.value < |s| && s[r.value] == c && c !in s[..r.value]
  {
    if s == [] then None
    else if s[0] == c then Some(0)
    else match FirstIndexOf(s[1..], c)
      case None => None
      case Some(i) => assert s[..i + 1] == [s[0]] + s[1..][..i]; Some(i + 1)
  }

  /** The last index of `c` in `s`. */
  function LastIndexOf(s: string, c: char): (r: Option<nat>)
    ensures r.None? <==> c !in s
    ensures r.Some? ==> r.value < |s| && s[r.value] == c && c !in s[r.value + 1..]
  {
    if s == [] then None
    else if s[|s| - 1] == c then Some(|s| - 1)
    else
      var r := LastIndexOf(s[..|s| - 1], c);
      assert r.Some? ==> s[r.value + 1..] == s[..|s| - 1][r.value + 1..] + [s[|s| - 1]];
      r
  }

  /** The first occurrence is where `c` occurs with no `c` before it. */
  lemma {:induction false} FirstIndexIs(s: string, c: char, k: nat)
    requires k < |s| && s[k] == c && c !in s[..k]
    ensures FirstIndexOf(s, c) == Some(k)
  {
    if k > 0 {
      assert s[0] == s[..k][0];
      assert s[1..][..k - 1] == s[1..k];
      FirstIndexIs(s[1..], c, k - 1);
    }
  }

  /** The last occurrence is where `c` occurs with no `c` after it. */
  lemma {:induction false} LastIndexIs(s: string, c: char, k: nat)
    requires k < |s| && s[k] == c && c !in s[k + 1..]
    ensures LastIndexOf(s, c) == Some(k)
  {
    if k < |s| - 1 {
      assert s[|s| - 1] == s[k + 1..][|s| - 1 - (k + 1)];
      assert s[..|s| - 1][k + 1..] == s[k + 1..|s| - 1];
      LastIndexIs(s[..|s| - 1], c, k);
    }
  }

  /** `content.match(/\{[\s\S]*\}/)?.[0]`. The leftmost match starts at the first `{`
      that has a `}` after it, which is the first `{` of all; the greedy middle then
      reaches the last `}`. */
  function ExtractJson(content: string): (r: Option<string>)
    ensures r.None? <==> !exists i, j :: 0 <= i < j < |content| && content[i] == '{' && content[j] == '}'
    ensures r.Some? ==> exists i :: 0 <= i < |content| && '{' !in content[..i]
                          && i + |r.value| <= |content| && r.value == content[i..i + |r.value|]
                          && '}' !in content[i + |r.value|..]
    ensures r.Some? ==> |r.value| >= 2 && r.value[0] == '{' && r.value[|r.value| - 1] == '}'
  {
    match (FirstIndexOf(content, '{'), LastIndexOf(content, '}'))
    case (Some(i), Some(j)) =>
      if i < j then Some(content[i..j + 1])
      else
        NoBracePair(content, i, j);
        None
    case _ => None
  }

  /** When the last `}` comes before the first `{`, no `{` precedes any `}`. */
  lemma NoBracePair(content: string, i: nat, j: nat)
    requires i < |content| && j < |content| && j <= i
    requires '{' !in content[..i] && '}' !in content[j + 1..]
    ensures !exists a, b :: 0 <= a < b < |content| && content[a] == '{' && content[b] == '}'
  {
    forall a | 0 <= a < i ensures content[a] != '{' {
      assert content[a] == content[..i][a];
    }
    forall b | j < b < |content| ensures content[b] != '}' {
      assert content[b] == content[j + 1..][b - j - 1];
    }
  }

  /** An answer wrapped in text with no brace of the wrong kind, such as a Markdown code
      fence, gives back exactly the object inside. */
  lemma ExtractUnwraps(before: string, json: string, after: string)
    requires |json| >= 2 && json[0] == '{' && json[|json| - 1] == '}'
    requires '{' !in before && '}' !in after
    ensures ExtractJson(before + json + after) == Some(json)
  {
    var s := before + json + after;
    var i, j := |before|, |before| + |json| - 1;
    assert s[..i] == before;
    assert s[j + 1..] == after;
    FirstIndexIs(s, '{', i);
    LastIndexIs(s, '}', j);
    assert s[i..j + 1] == json;
  }

  /** The grading the handler returns for a completion: the parsed object when an object
      can be cut out and parsed, the fallback otherwise. */
  function GradingOf(content: string, parse: string -> Option<Grading>): Grading {
    match ExtractJson(content)
    case None => FallbackGrading
    case Some(json) => parse(json).GetOr(FallbackGrading)
  }

  /** A parsed grading is returned as it is, whatever its shape: any number of areas and
      any scores. */
  lemma ParsedGradingPassesThrough(content: string, parse: string -> Option<Grading>, g: Grading)
    requires ExtractJson(content).Some? && parse(ExtractJson(content).value) == Some(g)
    ensures GradingOf(content, parse) == g
  {
  }

  /** Without an object to cut out (no `{`, or no `}` after the first `{`), or with one
      that does not parse, the fallback is used: the converse of
      `ParsedGradingPassesThrough`. */
  lemma FallbackWhenNoObject(content: string, parse: string -> Option<Grading>)
    requires ExtractJson(content).None? || parse(ExtractJson(content).value).None?
    ensures GradingOf(content, parse) == FallbackGrading
  {
  }

  /** A `{` with no `}` after it, such as a truncated answer, leaves nothing to cut out. */
  lemma {:induction false} UnclosedBraceFallsBack(content: string, parse: string -> Option<Grading>, i: nat)
    requires i < |content| && content[i] == '{' && '{' !in content[..i] && '}' !in content[i..]
    ensures ExtractJson(content).None?
    ensures GradingOf(content, parse) == FallbackGrading
  {
    assert content[i + 1..] == content[i..][1..];
    NoBracePair(content, i, i);
  }

  /** The `let grading` / `try` / `catch` sequence that chooses the grading. */
  method SelectGrading(content: string, parse: string -> Option<Grading>) returns (grading: Grading)
    ensures grading == GradingOf(content, parse)
  {
    var jsonMatch := ExtractJson(content);
    if jsonMatch.Some? {
      var parsed := parse(jsonMatch.value);
      if parsed.Some? {
        grading := parsed.value;
        return;
      }
    }
    grading := FallbackGrading;
  }

  function GradeRequest(persona: string, outcome: string, messages: seq<WireMessage>): GatewayRequest {
    GatewayRequest(ChatModel,
      [WireMessage("system", GradingPrompt), WireMessage("user", GradingUserMessage(persona, outcome, messages))],
      1500, 0.3)
  }

  const MissingKeyMessage: string := "LOVABLE_API_KEY is not configured"
  const NoContentMessage: string := "No response from AI"

  /** The reply of the handler when the gateway answers `reply`. */
  function GradeOutcome(apiKey: Option<string>, reply: GatewayReply, parse: string -> Option<Grading>): HttpReply<Grading> {
    if !Present(apiKey) then HttpReply(500, ErrorBody(MissingKeyMessage))
    else if !IsOk(reply.status) then HttpReply(500, ErrorBody(GatewayErrorMessage(reply.status)))
    else if !Present(reply.content) then HttpReply(500, ErrorBody(NoContentMessage))
    else HttpReply(200, Payload(GradingOf(reply.content.value, parse)))
  }

  /** Every failure before a completion arrives is a 500 with no fallback, rate limits and
      spent credits included; a completion always gives 200 and a grading. */
  lemma GradeStatusMapping(apiKey: Option<string>, reply: GatewayReply, parse: string -> Option<Grading>)
    ensures var r := GradeOutcome(apiKey, reply, parse);
            && (r.status == 200 || r.status == 500)
            && (r.status == 200 <==> Present(apiKey) && IsOk(reply.status) && Present(reply.content))
            && (r.status == 200 ==> r.body == Payload(GradingOf(reply.content.value, parse)))
            && (r.status == 500 ==> r.body.ErrorBody?)
  {
  }

  /** The request handler; `sent` lists the requests made to the gateway. */
  method GradeConversation(apiKey: Option<string>, messages: seq<WireMessage>, persona: string, outcome: string,
                           gateway: GatewayRequest -> GatewayReply, parse: string -> Option<Grading>)
    returns (response: HttpReply<Grading>, sent: seq<GatewayRequest>)
    ensures sent == if Present(apiKey) then [GradeRequest(persona, outcome, messages)] else []
    ensures response == GradeOutcome(apiKey, gateway(GradeRequest(persona, outcome, messages)), parse)
  {
    if !Present(apiKey) {
      return HttpReply(500, ErrorBody(MissingKeyMessage)), [];
    }
    var request := GradeRequest(persona, outcome, messages);
    var reply := gateway(request);
    sent := [request];
    if !IsOk(reply.status) {
      return HttpReply(500, ErrorBody(GatewayErrorMessage(reply.status))), sent;
    }
    if !Present(reply.content) {
      return HttpReply(500, ErrorBody(NoContentMessage)), sent;
    }
    var grading := SelectGrading(reply.content.value, parse);
    response := HttpReply(200, Payload(grading));
  }
}

=== FILE: GradingView.dfy ===
/** The grading screen (src/components/ConversationGrading.tsx): the colour bands of scores
    and of the likelihood of success, and the rows it shows for a grading. Scores are
    compared as exact rationals; `likelihood / 10` is the exact quotient. */
module GradingView {
  import opened Records

  /** The four colour bands, from worst to best. */
  datatype Band = Red | Orange | Yellow | Green

  /** The position of a band in the order worst to best. */
  function Rank(b: Band): nat {
    match b
    case Red => 0
    case Orange => 1
    case Yellow => 2
    case Green => 3
  }

  /** `getScoreColor`: the band of a score out of 10. */
  function ScoreBand(score: real): Band {
    if score >= 8.0 then Green
    else if score >= 6.0 then Yellow
    else if score >= 4.0 then Orange
    else Red
  }

  /** `getLikelihoodColor`: the band of a percentage. */
  function LikelihoodBand(likelihood: real): Band {
    if likelihood >= 70.0 then Green
    else if likelihood >= 50.0 then Yellow
    else if likelihood >= 30.0 then Orange
    else Red
  }

  /** The text class `getScoreColor` returns for a band. */
  function TextClass(b: Band): string {
    match b
    case Green => "text-green-500"
    case Yellow => "text-yellow-500"
    case Orange => "text-orange-500"
    case Red => "text-red-500"
  }

  /** The background class `getLikelihoodColor` returns for a band. */
  function BackgroundClass(b: Band): string {
    match b
    case Green => "bg-green-500"
    case Yellow => "bg-yellow-500"
    case Orange => "bg-orange-500"
    case Red => "bg-red-500"
  }

  /** A higher score never falls in a lower band. */
  lemma ScoreBandMonotone(a: real, b: real)
    requires a <= b
    ensures Rank(ScoreBand(a)) <= Rank(ScoreBand(b))
  {
  }

  /** `getLikelihoodColor`'s bands: green from 70, yellow from 50, orange from 30, red
      below. */
  lemma LikelihoodBands(likelihood: real)
    ensures LikelihoodBand(likelihood) == Green <==> likelihood >= 70.0
    ensures LikelihoodBand(likelihood) == Yellow <==> 50.0 <= likelihood < 70.0
    ensures LikelihoodBand(likelihood) == Orange <==> 30.0 <= likelihood < 50.0
    ensures LikelihoodBand(likelihood) == Red <==> likelihood < 30.0
  {
  }

  /** A higher likelihood never falls in a lower band. */
  lemma LikelihoodBandMonotone(a: real, b: real)
    requires a <= b
    ensures Rank(LikelihoodBand(a)) <= Rank(LikelihoodBand(b))
  {
  }

  /** Both class functions tell the four bands apart. */
  lemma ClassesDistinguishBands(a: Band, b: Band)
    ensures TextClass(a) == TextClass(b) <==> a == b
    ensures BackgroundClass(a) == BackgroundClass(b) <==> a == b
  {
    if a != b {
      assert TextClass(a)[5] != TextClass(b)[5];
      assert BackgroundClass(a)[3] != BackgroundClass(b)[3];
    }
  }

  /** The band of the likelihood label: the score band of `likelihood / 10`. */
  function LikelihoodLabelBand(likelihood: int): Band {
    ScoreBand(likelihood as real / 10.0)
  }

  /** For a whole-number likelihood the label is green from 80, yellow from 60, orange from
      40 and red below. */
  lemma LikelihoodLabelBands(likelihood: int)
    ensures LikelihoodLabelBand(likelihood) == Green <==> likelihood >= 80
    ensures LikelihoodLabelBand(likelihood) == Yellow <==> 60 <= likelihood < 80
    ensures LikelihoodLabelBand(likelihood) == Orange <==> 40 <= likelihood < 60
    ensures LikelihoodLabelBand(likelihood) == Red <==> likelihood < 40
  {
    var q := likelihood as real / 10.0;
    assert q * 10.0 == likelihood as real;
  }

  /** The label does not use the likelihood's own bands: at 75 the label is yellow while
      `getLikelihoodColor` would give green. */
  lemma LabelIgnoresLikelihoodBands()
    ensures LikelihoodLabelBand(75) == Yellow
    ensures LikelihoodBand(75.0) == Green
  {
    LikelihoodLabelBands(75);
  }

  /** One area row: its name, its score's class, its progress value and its feedback. */
  datatype AreaRow = AreaRow(name: string, scoreClass: string, progress: int, feedback: string)

  /** `grading.areas.map(...)`. */
  function AreaRows(areas: seq<Area>): (rows: seq<AreaRow>)
    ensures |rows| == |areas|
    ensures forall i :: 0 <= i < |areas| ==>
              rows[i] == AreaRow(areas[i].name, TextClass(ScoreBand(areas[i].score as real)),
                                 areas[i].score * 10, areas[i].feedback)
  {
    if areas == [] then []
    else [AreaRow(areas[0].name, TextClass(ScoreBand(areas[0].score as real)),
                  areas[0].score * 10, areas[0].feedback)] + AreaRows(areas[1..])
  }

  /** What the screen shows: the likelihood bar's value, the likelihood label's class, the
      summary and the area rows. */
  datatype GradingScreen = GradingScreen(
    likelihoodValue: int,
    likelihoodClass: string,
    summary: string,
    rows: seq<AreaRow>)

  function Render(g: Grading): GradingScreen {
    GradingScreen(g.likelihood, TextClass(LikelihoodLabelBand(g.likelihood)), g.summary, AreaRows(g.areas))
  }

  /** A score out of 10 gives a progress value out of 100, and better scores fill more. */
  lemma ProgressScale(a: Area, b: Area)
    requires 0 <= a.score <= 10
    requires a.score <= b.score
    ensures 0 <= AreaRows([a])[0].progress <= 100
    ensures AreaRows([a])[0].progress <= AreaRows([b])[0].progress
  {
  }

  /** Rendering keeps every area, in order, with the colour of its own score; the label
      colour follows the likelihood's bands out of 100. */
  lemma RenderKeepsAreas(g: Grading)
    ensures |Render(g).rows| == |g.areas|
    ensures forall i :: 0 <= i < |g.areas| ==>
              Render(g).rows[i].name == g.areas[i].name
              && Render(g).rows[i].progress == 10 * g.areas[i].score
              && (Render(g).rows[i].scoreClass == "text-green-500" <==> g.areas[i].score >= 8)
    ensures Render(g).likelihoodClass == "text-green-500" <==> g.likelihood >= 80
  {
    LikelihoodLabelBands(g.likelihood);
    forall i | 0 <= i < |g.areas|
      ensures Render(g).rows[i].scoreClass == "text-green-500" <==> g.areas[i].score >= 8
    {
      ClassesDistinguishBands(ScoreBand(g.areas[i].score as real), Green);
    }
    ClassesDistinguishBands(LikelihoodLabelBand(g.likelihood), Green);
  }
}

=== FILE: HistoryPage.dfy ===
/** The history page (src/pages/History.tsx): the signed-in user's past conversations, each
    shown with its persona's emoji and name and, once graded, a success badge. */
module HistoryPage {
  import opened Wrappers
  import opened Records
  import opened Personas
  import opened Credits

  const FallbackName: string := "Boss"

  /** The fallback emoji as the page carries it: the UTF-8 bytes of U+1F454 (necktie) read
      as Mac Roman characters. */
  const FallbackEmoji: string := "\U{F8FF}\U{00FC}\U{00EB}\U{00EE}"

  /** `getPersonaName`: the catalogue name, or the fallback for an unknown identifier. */
  function PersonaNameFor(personaId: string): string {
    var found := FindPersona(personaId);
    if found.Some? && found.value.name != "" then found.value.name else FallbackName
  }

  /** `getPersonaEmoji`: the catalogue emoji, or the fallback for an unknown identifier. */
  function PersonaEmojiFor(personaId: string): string {
    var found := FindPersona(personaId);
    if found.Some? && found.value.emoji != "" then found.value.emoji else FallbackEmoji
  }

  /** Known identifiers show their own persona; anything else shows the fallbacks. */
  lemma LookupsFallBack(personaId: string)
    ensures forall p: BossPersona :: personaId == PersonaId(p) ==>
              PersonaNameFor(personaId) == PersonaName(p) && PersonaEmojiFor(personaId) == InfoOf(p).emoji
    ensures (forall p: BossPersona :: personaId != PersonaId(p)) ==>
              PersonaNameFor(personaId) == FallbackName && PersonaEmojiFor(personaId) == FallbackEmoji
  {
    CatalogueCoversPersonas();
    forall p: BossPersona | personaId == PersonaId(p)
      ensures PersonaNameFor(personaId) == PersonaName(p) && PersonaEmojiFor(personaId) == InfoOf(p).emoji
    {
      FindKnownPersona(p);
      var info := FindPersona(personaId).value;
      assert info == BossPersonas[CatalogueIndex(p)];
      assert info == InfoOf(p);
      assert info.emoji != "";
    }
    if forall p: BossPersona :: personaId != PersonaId(p) {
      forall i | 0 <= i < |BossPersonas| ensures PersonaId(BossPersonas[i].id) != personaId {
        assert personaId != PersonaId(BossPersonas[i].id);
      }
    }
  }

  /** The fallback name is no persona's name, so an unknown identifier is never mistaken
      for a known one. */
  lemma FallbackNameIsNoPersona(p: BossPersona)
    ensures PersonaName(p) != FallbackName
  {
    assert PersonaName(p)[0] == 'T';
  }

  /** One entry of the list as shown. */
  datatype Entry = Entry(emoji: string, name: string, targetRaise: string, badge: Option<int>)

  /** The entry of one conversation; the badge shows the likelihood of success and appears
      only for a graded conversation. */
  function EntryOf(row: ConversationRow): (e: Entry)
    ensures e.badge.Some? <==> row.grading.Some?
    ensures e.badge.Some? ==> e.badge.value == row.grading.value.likelihood
    ensures e.emoji == PersonaEmojiFor(row.bossPersona)
    ensures e.name == PersonaNameFor(row.bossPersona) && e.targetRaise == row.targetRaise
  {
    Entry(PersonaEmojiFor(row.bossPersona), PersonaNameFor(row.bossPersona), row.targetRaise,
          if row.grading.Some? then Some(row.grading.value.likelihood) else None)
  }

  /** `conversations.map(...)`: one entry per conversation, in the order fetched. */
  function Entries(rows: seq<ConversationRow>): (es: seq<Entry>)
    ensures |es| == |rows|
    ensures forall i :: 0 <= i < |rows| ==> es[i] == EntryOf(rows[i])
  {
    if rows == [] then [] else [EntryOf(rows[0])] + Entries(rows[1..])
  }

  /** The number of badges is the number of graded conversations. */
  function Graded(rows: seq<ConversationRow>): nat {
    if rows == [] then 0 else (if rows[0].grading.Some? then 1 else 0) + Graded(rows[1..])
  }

  function Badges(es: seq<Entry>): nat {
    if es == [] then 0 else (if es[0].badge.Some? then 1 else 0) + Badges(es[1..])
  }

  lemma {:induction false} BadgesCountGraded(rows: seq<ConversationRow>)
    ensures Badges(Entries(rows)) == Graded(rows)
  {
    if rows != [] {
      assert Entries(rows)[1..] == Entries(rows[1..]);
      BadgesCountGraded(rows[1..]);
    }
  }

  class HistoryPage {
    var conversations: seq<ConversationRow>
    var loading: bool
    /** The route the page sent the browser to, if any. */
    var navigatedTo: Option<string>

    constructor ()
      ensures conversations == [] && loading && navigatedTo == None
    {
      conversations := [];
      loading := true;
      navigatedTo := None;
    }

    /** The page's effect: without a user it sends the browser to the sign-in page and
        fetches nothing; otherwise it fetches that user's conversations (`data`, absent
        when the query fails) and stops loading. Returns whose conversations were fetched. */
    method Load(user: Option<User>, data: Option<seq<ConversationRow>>) returns (fetchedFor: Option<string>)
      modifies this
      ensures user.None? ==> fetchedFor == None && navigatedTo == Some("/auth")
                              && conversations == old(conversations) && loading == old(loading)
      ensures user.Some? ==> fetchedFor == Some(user.value.id) && navigatedTo == old(navigatedTo)
                              && conversations == data.GetOr(old(conversations)) && !loading
    {
      if user.None? {
        navigatedTo := Some("/auth");
        return None;
      }
      fetchedFor := Some(user.value.id);
      if data.Some? {
        conversations := data.value;
      }
      loading := false;
    }

    function Shown(): seq<Entry>
      reads this
    {
      Entries(conversations)
    }
  }
}

=== FILE: Personas.dfy ===
/** The three boss personas, their catalogue entries and the instructions that make the
    chat model play them (src/types/negotiation.ts). */
module Personas {
  import opened Wrappers
  import opened Text

  datatype BossPersona = BudgetBlocker | DataDriven | Gaslighter

  /** The identifier a persona carries on the wire and in the store. */
  function PersonaId(p: BossPersona): string {
    match p
    case BudgetBlocker => "budget-blocker"
    case DataDriven => "data-driven"
    case Gaslighter => "gaslighter"
  }

  datatype PersonaInfo = PersonaInfo(
    id: BossPersona,
    name: string,
    title: string,
    description: string,
    traits: seq<string>,
    emoji: string)

  /** `BOSS_PERSONAS`, in display order. */
  const BossPersonas: seq<PersonaInfo> := [
    PersonaInfo(BudgetBlocker, PersonaName(BudgetBlocker), "Director of Finance",
      "Friendly but constantly claims there is no money in the budget. Will sympathize with you while shutting down every request.",
      ["Sympathetic", "Budget-focused", "Deflective"], "\U{1F4BC}"),
    PersonaInfo(DataDriven, PersonaName(DataDriven), "VP of Operations",
      "Cold, analytical, only cares about ROI and metrics. Numbers speak louder than feelings.",
      ["Analytical", "Results-oriented", "Skeptical"], "\U{1F4CA}"),
    PersonaInfo(Gaslighter, PersonaName(Gaslighter), "Senior Manager",
      "Dismissive, tries to make you feel lucky to even have a job. Questions your contributions and confidence.",
      ["Dismissive", "Manipulative", "Undermining"], "\U{1F3AD}")
  ]

  /** Where each persona sits in the catalogue. */
  function CatalogueIndex(p: BossPersona): nat {
    match p
    case BudgetBlocker => 0
    case DataDriven => 1
    case Gaslighter => 2
  }

  /** The catalogue has one entry per persona, in the order of the type, each with three
      traits; so its identifiers are pairwise distinct and cover the whole type. */
  lemma CatalogueCoversPersonas()
    ensures |BossPersonas| == 3
    ensures forall p: BossPersona :: CatalogueIndex(p) < |BossPersonas| && BossPersonas[CatalogueIndex(p)].id == p
    ensures forall i, j :: 0 <= i < j < |BossPersonas| ==>
              PersonaId(BossPersonas[i].id) != PersonaId(BossPersonas[j].id)
    ensures forall i :: 0 <= i < |BossPersonas| ==> |BossPersonas[i].traits| == 3
  {
  }

  /** `list.find(p => p.id === id)`: the first entry whose identifier is `id`. */
  function FindIn(list: seq<PersonaInfo>, id: string): (r: Option<PersonaInfo>)
    ensures r.None? <==> forall i :: 0 <= i < |list| ==> PersonaId(list[i].id) != id
    ensures r.Some? ==> exists i :: 0 <= i < |list| && list[i] == r.value
                          && PersonaId(r.value.id) == id
                          && forall j :: 0 <= j < i ==> PersonaId(list[j].id) != id
  {
    if list == [] then None
    else if PersonaId(list[0].id) == id then Some(list[0])
    else
      var r := FindIn(list[1..], id);
      assert forall i :: 1 <= i < |list| ==> list[i] == list[1..][i - 1];
      r
  }

  /** `BOSS_PERSONAS.find(p => p.id === id)`. */
  function FindPersona(id: string): Option<PersonaInfo> {
    FindIn(BossPersonas, id)
  }

  /** Every persona's identifier finds that persona's catalogue entry. */
  lemma FindKnownPersona(p: BossPersona)
    ensures FindPersona(PersonaId(p)).Some?
    ensures FindPersona(PersonaId(p)).value.id == p
    ensures FindPersona(PersonaId(p)).value in BossPersonas
  {
    CatalogueCoversPersonas();
    var i := CatalogueIndex(p);
    assert PersonaId(BossPersonas[i].id) == PersonaId(p);
  }

  /** The catalogue entry of a persona (`BOSS_PERSONAS.find(p => p.id === persona)!`). */
  function InfoOf(p: BossPersona): (info: PersonaInfo)
    ensures info in BossPersonas && info.id == p
    ensures info.name == PersonaName(p)
  {
    FindKnownPersona(p);
    FindPersona(PersonaId(p)).value
  }

  const BaseHead: string :=
    "You are playing the role of a realistic manager in a salary negotiation roleplay. The employee is asking for a raise of "

  const BaseTail: string :=
    ". Your job is to make this negotiation challenging but realistic.\n\nIMPORTANT RULES:\n"
    + "- Do NOT give in easily. Make the employee work for it.\n"
    + "- If they provide weak arguments, push back firmly.\n"
    + "- If they provide strong value-based arguments with specific examples, you can gradually warm up.\n"
    + "- Keep responses concise (2-4 sentences typically).\n"
    + "- Stay in character throughout.\n"
    + "- Never break character unless explicitly asked for feedback.\n"
    + "- After 5-8 strong exchanges where the employee demonstrates clear value, you may consider agreeing."

  /** The shared part of every persona prompt, with the target raise spliced in. */
  function BasePrompt(targetRaise: string): string {
    Concat([BaseHead, targetRaise, BaseTail])
  }

  /** The catalogue name of each persona, which its overlay also quotes. */
  function PersonaName(p: BossPersona): string {
    match p
    case BudgetBlocker => "The Budget Blocker"
    case DataDriven => "The Show-Me-The-Data"
    case Gaslighter => "The Gaslighter"
  }

  /** The overlay text between the persona header and the stock phrases. The gaslighter's
      header line ends in two stray spaces, kept here. */
  function OverlayIntro(p: BossPersona): string {
    match p
    case BudgetBlocker =>
      "\n- You're friendly and sympathetic, but your go-to response is budget constraints.\n- Common phrases: \""
    case DataDriven =>
      "\n- You're cold and analytical. Emotions don't move you, only data does.\n"
      + "- Demand specific metrics, ROI calculations, and market comparisons.\n- Common phrases: \""
    case Gaslighter =>
      "  \n- You're dismissive and subtly undermine the employee's confidence.\n"
      + "- Question their contributions, suggest they're already overpaid, remind them of the job market.\n"
      + "- Common phrases: \""
  }

  /** The data-driven persona's demand for figures. */
  const ShowMeTheNumbers: string := "Show me the numbers..."

  /** The persona's three stock phrases, as its overlay quotes them. */
  function StockPhrases(p: BossPersona): (phrases: seq<string>)
    ensures |phrases| == 3
  {
    match p
    case BudgetBlocker =>
      ["I really wish I could...", "You know I value you, but...", "The budget is just so tight right now..."]
    case DataDriven =>
      ["What's the quantifiable impact?", ShowMeTheNumbers, "How does this compare to industry benchmarks?"]
    case Gaslighter =>
      ["Are you sure you're ready for that?", "In this economy?", "I thought you were a team player..."]
  }

  /** The overlay text after the stock phrases. */
  function OverlayOutro(p: BossPersona): string {
    match p
    case BudgetBlocker =>
      "\"\n- You deflect by promising future reviews or suggesting non-monetary perks.\n"
      + "- You genuinely like the employee but hide behind company policy and budget."
    case DataDriven =>
      "\"\n- You respect well-researched arguments but dismiss emotional appeals."
    case Gaslighter =>
      "\"\n- Make them feel like asking is inappropriate, but never be outright hostile."
  }

  /** The overlay template: the persona header (pieces 1 to 3), its description, and the
      three stock phrases (pieces 5, 7 and 9) quoted and separated by commas. */
  function Overlay(name: string, intro: string, phrases: seq<string>, outro: string): seq<string>
    requires |phrases| == 3
  {
    ["\n\n", "YOUR PERSONA: \"", name, "\"", intro,
     phrases[0], "\", \"", phrases[1], "\", \"", phrases[2], outro]
  }

  /** The header line naming the persona. */
  function PersonaHeader(name: string): string {
    "YOUR PERSONA: \"" + name + "\""
  }

  /** The overlay opens with a blank line and the persona header. */
  lemma OverlayOpensWithHeader(name: string, intro: string, phrases: seq<string>, outro: string)
    requires |phrases| == 3
    ensures Concat(Overlay(name, intro, phrases, outro))
            == "\n\n" + PersonaHeader(name) + Concat(Overlay(name, intro, phrases, outro)[4..])
  {
    var pieces := Overlay(name, intro, phrases, outro);
    var rest := Concat(pieces[4..]);
    assert Concat(pieces[3..]) == "\"" + rest;
    assert Concat(pieces[2..]) == name + ("\"" + rest);
    assert Concat(pieces[1..]) == "YOUR PERSONA: \"" + (name + ("\"" + rest));
  }

  /** A text made of a base, a blank line, a persona header and anything after it starts
      with the base and names the persona right after the header's opening quote. */
  lemma HeaderAfterBase(base: string, name: string, rest: string)
    ensures var prompt := base + ("\n\n" + PersonaHeader(name) + rest);
            && StartsWith(prompt, base)
            && StartsWith(prompt[|base|..], "\n\n" + PersonaHeader(name))
            && OccursAt(prompt, |base| + 17, name)
            && Contains(prompt, PersonaHeader(name))
  {
    var open := "\n\nYOUR PERSONA: \"";
    var close := "\"" + rest;
    var overlay := "\n\n" + PersonaHeader(name) + rest;
    var prompt := base + overlay;
    StartsWithLeft(base, overlay);
    StartsWithLeft("\n\n" + PersonaHeader(name), rest);
    assert prompt[|base|..] == overlay;
    assert prompt == (base + open) + name + close by {
      assert overlay == open + name + close;
    }
    ContainsInside(base + open, name, close);
    assert prompt == (base + "\n\n") + PersonaHeader(name) + rest;
    ContainsInside(base + "\n\n", PersonaHeader(name), rest);
  }

  /** Whatever base and name fill the template, the text starts with the base and names the
      persona in its header right after the base. */
  lemma OverlayNamesPersona(base: string, name: string, intro: string, phrases: seq<string>, outro: string)
    requires |phrases| == 3
    ensures var prompt := base + Concat(Overlay(name, intro, phrases, outro));
            && StartsWith(prompt, base)
            && StartsWith(prompt[|base|..], "\n\n" + PersonaHeader(name))
            && OccursAt(prompt, |base| + 17, name)
            && Contains(prompt, PersonaHeader(name))
  {
    OverlayOpensWithHeader(name, intro, phrases, outro);
    HeaderAfterBase(base, name, Concat(Overlay(name, intro, phrases, outro)[4..]));
  }

  /** Whatever phrases fill the template, the text quotes each of them. */
  lemma OverlayQuotesPhrases(base: string, name: string, intro: string, phrases: seq<string>, outro: string)
    requires |phrases| == 3
    ensures forall k :: 0 <= k < 3 ==> Contains(base + Concat(Overlay(name, intro, phrases, outro)), phrases[k])
  {
    var pieces := Overlay(name, intro, phrases, outro);
    var overlay := Concat(pieces);
    var prompt := base + overlay;
    ContainsInside(base, overlay, "");
    assert base + overlay + "" == prompt;
    forall k | 0 <= k < 3 ensures Contains(prompt, phrases[k]) {
      ConcatContainsPiece(pieces, 5 + 2 * k);
      ContainsTransitive(prompt, overlay, phrases[k]);
    }
  }

  /** The persona's overlay. */
  function OverlayPieces(p: BossPersona): seq<string> {
    Overlay(PersonaName(p), OverlayIntro(p), StockPhrases(p), OverlayOutro(p))
  }

  /** `getSystemPrompt`: the base prompt followed by the persona's overlay. The match is
      exhaustive over the closed persona type, so every persona has a prompt. */
  function GetSystemPrompt(p: BossPersona, targetRaise: string): string {
    BasePrompt(targetRaise) + Concat(OverlayPieces(p))
  }

  /** Every persona prompt starts with the shared base prompt, contains the target raise
      verbatim, names the persona by its catalogue name in its header, and quotes the
      persona's stock phrases. */
  lemma SystemPromptContents(p: BossPersona, targetRaise: string)
    ensures StartsWith(GetSystemPrompt(p, targetRaise), BasePrompt(targetRaise))
    ensures Contains(GetSystemPrompt(p, targetRaise), targetRaise)
    ensures Contains(GetSystemPrompt(p, targetRaise), PersonaHeader(PersonaName(p)))
    ensures forall k :: 0 <= k < 3 ==> Contains(GetSystemPrompt(p, targetRaise), StockPhrases(p)[k])
  {
    PromptContents(BaseHead, targetRaise, BaseTail, PersonaName(p), OverlayIntro(p), StockPhrases(p), OverlayOutro(p));
  }

  /** The same facts for any filling of the base and overlay templates. */
  lemma PromptContents(head: string, t: string, tail: string,
                       name: string, intro: string, phrases: seq<string>, outro: string)
    requires |phrases| == 3
    ensures var base := Concat([head, t, tail]);
            var prompt := base + Concat(Overlay(name, intro, phrases, outro));
            && StartsWith(prompt, base)
            && Contains(prompt, t)
            && Contains(prompt, PersonaHeader(name))
            && forall k :: 0 <= k < 3 ==> Contains(prompt, phrases[k])
  {
    var base := Concat([head, t, tail]);
    var prompt := base + Concat(Overlay(name, intro, phrases, outro));
    OverlayNamesPersona(base, name, intro, phrases, outro);
    OverlayQuotesPhrases(base, name, intro, phrases, outro);
    ConcatContainsPiece([head, t, tail], 1);
    assert Contains(prompt, base) by {
      assert OccursAt(prompt, 0, base);
    }
    ContainsTransitive(prompt, base, t);
  }

  /** The data-driven persona's second stock phrase is its demand for figures. */
  lemma DataDrivenPhrase()
    ensures StockPhrases(DataDriven)[1] == ShowMeTheNumbers
  {
  }

  /** The data-driven prompt asks for the numbers: its stock phrase is "Show me the
      numbers...", the only place "Show me the data" appears being the voice prompt. */
  lemma DataDrivenAsksForNumbers(targetRaise: string)
    ensures Contains(GetSystemPrompt(DataDriven, targetRaise), ShowMeTheNumbers)
  {
    SystemPromptContents(DataDriven, targetRaise);
    DataDrivenPhrase();
  }

  /** Different personas get different prompts, whatever the target raise. */
  lemma SystemPromptDistinguishesPersonas(p: BossPersona, q: BossPersona, targetRaise: string)
    requires p != q
    ensures GetSystemPrompt(p, targetRaise) != GetSystemPrompt(q, targetRaise)
  {
    NamesDiffer(p, q);
    OverlaysDiffer(BasePrompt(targetRaise),
      PersonaName(p), OverlayIntro(p), StockPhrases(p), OverlayOutro(p),
      PersonaName(q), OverlayIntro(q), StockPhrases(q), OverlayOutro(q));
  }

  /** Past the common "The ", the persona names start with B, S and G. */
  lemma NamesDiffer(p: BossPersona, q: BossPersona)
    requires p != q
    ensures |PersonaName(p)| > 4 && |PersonaName(q)| > 4
    ensures PersonaName(p)[4] != PersonaName(q)[4]
  {
  }

  /** Two overlays whose persona names differ at a common position differ after any base. */
  lemma OverlaysDiffer(base: string,
                       name1: string, intro1: string, phrases1: seq<string>, outro1: string,
                       name2: string, intro2: string, phrases2: seq<string>, outro2: string)
    requires |phrases1| == 3 && |phrases2| == 3
    requires |name1| > 4 && |name2| > 4 && name1[4] != name2[4]
    ensures base + Concat(Overlay(name1, intro1, phrases1, outro1))
            != base + Concat(Overlay(name2, intro2, phrases2, outro2))
  {
    OverlayNamesPersona(base, name1, intro1, phrases1, outro1);
    OverlayNamesPersona(base, name2, intro2, phrases2, outro2);
    // "\n\n" and the 15 characters of `YOUR PERSONA: "` come before the name.
    var at := |base| + 17 + 4;
    assert (base + Concat(Overlay(name1, intro1, phrases1, outro1)))[at] == name1[4];
    assert (base + Concat(Overlay(name2, intro2, phrases2, outro2)))[at] == name2[4];
  }

  /** The four section headings the feedback prompt asks for. */
  const StrengthsHeading: string := "**Strengths:**"
  const ImprovementHeading: string := "**Areas for Improvement:**"
  const TacticsMissedHeading: string := "**Key Tactics Missed:**"
  const ConfidenceHeading: string := "**Confidence Score: X/10**"

  /** The pieces of the legacy feedback prompt; the headings are pieces 1, 3, 5 and 7. */
  const FeedbackPieces: seq<string> := [
    "Now break character completely. You are an expert negotiation coach analyzing the conversation above. Provide constructive feedback in this format:\n\n",
    StrengthsHeading, "\n- What did they do well?\n\n",
    ImprovementHeading, "\n- What could they have done better?\n\n",
    TacticsMissedHeading, "\n- Any specific negotiation techniques they should try?\n\n",
    ConfidenceHeading, "\n- Brief explanation\n\n",
    "Keep feedback encouraging but honest. Be specific with examples from the conversation."
  ]

  /** `getFeedbackPrompt`: takes nothing, so always the same text. */
  function GetFeedbackPrompt(): string {
    Concat(FeedbackPieces)
  }

  /** The feedback prompt asks for the four sections, among them the 0 to 10 confidence
      score. */
  lemma FeedbackPromptSections()
    ensures Contains(GetFeedbackPrompt(), StrengthsHeading)
    ensures Contains(GetFeedbackPrompt(), ImprovementHeading)
    ensures Contains(GetFeedbackPrompt(), TacticsMissedHeading)
    ensures Contains(GetFeedbackPrompt(), ConfidenceHeading)
  {
    FeedbackPromptQuotes(1);
    FeedbackPromptQuotes(3);
    FeedbackPromptQuotes(5);
    FeedbackPromptQuotes(7);
  }

  /** Every piece of the feedback prompt occurs in it. */
  lemma FeedbackPromptQuotes(k: nat)
    requires k < |FeedbackPieces|
    ensures Contains(GetFeedbackPrompt(), FeedbackPieces[k])
  {
    ConcatContainsPiece(FeedbackPieces, k);
  }
}

=== FILE: RealtimeSession.dfy ===
/** The `realtime-session` edge function (supabase/functions/realtime-session/index.ts): it
    picks the voice persona's character and voice, writes the voice instructions, and asks
    the speech service for a session. The service is a parameter, as in `Gateway`. */
module RealtimeSession {
  import opened Wrappers
  import opened Text
  import opened Gateway

  const BudgetBlockerTraits: string :=
    "You are friendly and warm but constantly claim there's no money in the budget. "
    + "Use phrases like 'I'd love to help, but...', 'You know I value you, however...', "
    + "'Times are tough right now...'. Be sympathetic but firm about budget constraints."

  /** The data-driven character, with its demand for data as its own piece. */
  const DataDrivenTraitsPieces: seq<string> := [
    "You are cold, analytical, and only care about ROI and metrics. "
    + "Demand specific numbers, percentages, and data points. Use phrases like 'What's the ROI on that?', '",
    "Show me the data",
    "', 'I need to see concrete metrics'. Be skeptical of emotional arguments."
  ]

  const GaslighterTraits: string :=
    "You are dismissive and try to make the employee feel lucky to have a job. "
    + "Use phrases like 'In this economy?', 'You should be grateful...', "
    + "'Many people would kill for your position', 'Are you sure you've earned this?'. "
    + "Subtly undermine their confidence."

  const DefaultTraits: string := "You are a tough but fair manager."

  /** `personalityTraits` after the `switch`. */
  function PersonalityTraits(persona: string): string {
    if persona == "budget-blocker" then BudgetBlockerTraits
    else if persona == "data-driven" then Concat(DataDrivenTraitsPieces)
    else if persona == "gaslighter" then GaslighterTraits
    else DefaultTraits
  }

  /** `voiceStyle` after the `switch`. */
  function VoiceStyle(persona: string): string {
    if persona == "budget-blocker" then "alloy"
    else if persona == "data-driven" then "echo"
    else if persona == "gaslighter" then "sage"
    else "alloy"
  }

  /** The `switch (persona)` that sets the two locals, starting from their defaults. */
  method SelectPersonality(persona: string) returns (personalityTraits: string, voiceStyle: string)
    ensures personalityTraits == PersonalityTraits(persona)
    ensures voiceStyle == VoiceStyle(persona)
  {
    personalityTraits := "";
    voiceStyle := "alloy";
    if persona == "budget-blocker" {
      personalityTraits := BudgetBlockerTraits;
      voiceStyle := "alloy";
    } else if persona == "data-driven" {
      personalityTraits := Concat(DataDrivenTraitsPieces);
      voiceStyle := "echo";
    } else if persona == "gaslighter" {
      personalityTraits := GaslighterTraits;
      voiceStyle := "sage";
    } else {
      personalityTraits := DefaultTraits;
    }
  }

  /** The three personas speak in three different voices; any other value gets the
      default character in the first persona's voice. */
  lemma VoicesPerPersona(persona: string)
    ensures VoiceStyle("budget-blocker") == "alloy"
    ensures VoiceStyle("data-driven") == "echo"
    ensures VoiceStyle("gaslighter") == "sage"
    ensures persona !in {"budget-blocker", "data-driven", "gaslighter"} ==>
              VoiceStyle(persona) == "alloy" && PersonalityTraits(persona) == DefaultTraits
    ensures persona in {"budget-blocker", "data-driven", "gaslighter"} ==>
              PersonalityTraits(persona) != DefaultTraits
  {
    if persona == "data-driven" {
      ConcatThree(DataDrivenTraitsPieces[0], DataDrivenTraitsPieces[1], DataDrivenTraitsPieces[2]);
      assert |PersonalityTraits(persona)| > |DefaultTraits|;
    }
  }

  /** Only the voice character asks to be shown "the data". */
  lemma DataDrivenVoiceAsksForData()
    ensures Contains(PersonalityTraits("data-driven"), "Show me the data")
  {
    ConcatContainsPiece(DataDrivenTraitsPieces, 1);
  }

  const VoiceHead: string :=
    "You are a realistic manager in a salary negotiation roleplay. The employee is asking for a "
  const VoiceMiddle: string := " raise.\n\n"
  const VoiceTail: string :=
    "\n\nIMPORTANT RULES:\n"
    + "- Do NOT give in easily. Make the employee work for it.\n"
    + "- If they provide weak arguments, shut them down politely but firmly.\n"
    + "- If they provide strong, value-based arguments with specific examples, you can consider their request.\n"
    + "- Stay in character at all times.\n"
    + "- Keep responses conversational and natural for voice - use short sentences.\n"
    + "- React realistically to their arguments.\n"
    + "- The negotiation should feel challenging but winnable with the right approach."

  /** The voice `systemPrompt`. */
  function VoicePrompt(targetAmount: string, personalityTraits: string): string {
    Concat([VoiceHead, targetAmount, VoiceMiddle, personalityTraits, VoiceTail])
  }

  /** The instructions quote the target amount and the chosen character verbatim, the
      amount before the character. */
  lemma VoicePromptQuotes(targetAmount: string, personalityTraits: string)
    ensures Contains(VoicePrompt(targetAmount, personalityTraits), targetAmount)
    ensures Contains(VoicePrompt(targetAmount, personalityTraits), personalityTraits)
    ensures Contains(VoicePrompt(targetAmount, personalityTraits), targetAmount + VoiceMiddle + personalityTraits)
  {
    var pieces := [VoiceHead, targetAmount, VoiceMiddle, personalityTraits, VoiceTail];
    ConcatContainsPiece(pieces, 1);
    ConcatContainsPiece(pieces, 3);
    ConcatContainsRun(pieces, 1, 3);
    assert pieces[1..4] == [targetAmount, VoiceMiddle, personalityTraits];
    ConcatThree(targetAmount, VoiceMiddle, personalityTraits);
  }

  /** The session request POSTed to the speech service. */
  datatype SessionRequest = SessionRequest(model: string, voice: string, instructions: string)

  /** The service's answer: its status and its JSON body, kept as text. */
  datatype SessionReply = SessionReply(status: int, body: string)

  function SessionRequestFor(persona: string, targetAmount: string): SessionRequest {
    SessionRequest("gpt-4o-realtime-preview-2024-12-17", VoiceStyle(persona),
                   VoicePrompt(targetAmount, PersonalityTraits(persona)))
  }

  const MissingKeyMessage: string := "OPENAI_API_KEY is not set"

  function ServiceErrorMessage(status: int): string {
    "OpenAI API error: " + IntToString(status)
  }

  /** The handler's reply when the service answers `reply`. */
  function SessionOutcome(apiKey: Option<string>, reply: SessionReply): HttpReply<string> {
    if !Present(apiKey) then HttpReply(500, ErrorBody(MissingKeyMessage))
    else if !IsOk(reply.status) then HttpReply(500, ErrorBody(ServiceErrorMessage(reply.status)))
    else HttpReply(200, Payload(reply.body))
  }

  /** A missing key or a failed call is a 500 with an error; otherwise the service's body
      is passed back unchanged. */
  lemma SessionStatusMapping(apiKey: Option<string>, reply: SessionReply)
    ensures var r := SessionOutcome(apiKey, reply);
            && (r.status == 200 || r.status == 500)
            && (r.status == 200 <==> Present(apiKey) && IsOk(reply.status))
            && (r.status == 200 ==> r.body == Payload(reply.body))
            && (r.status == 500 ==> r.body.ErrorBody?)
  {
  }

  /** The request handler; `sent` lists the requests made to the service. */
  method CreateSession(apiKey: Option<string>, persona: string, targetAmount: string,
                       service: SessionRequest -> SessionReply)
    returns (response: HttpReply<string>, sent: seq<SessionRequest>)
    ensures sent == if Present(apiKey) then [SessionRequestFor(persona, targetAmount)] else []
    ensures response == SessionOutcome(apiKey, service(SessionRequestFor(persona, targetAmount)))
  {
    if !Present(apiKey) {
      return HttpReply(500, ErrorBody(MissingKeyMessage)), [];
    }
    var personalityTraits, voiceStyle := SelectPersonality(persona);
    var systemPrompt := VoicePrompt(targetAmount, personalityTraits);
    var request := SessionRequest("gpt-4o-realtime-preview-2024-12-17", voiceStyle, systemPrompt);
    var reply := service(request);
    sent := [request];
    if !IsOk(reply.status) {
      return HttpReply(500, ErrorBody(ServiceErrorMessage(reply.status))), sent;
    }
    response := HttpReply(200, Payload(reply.body));
  }
}

=== FILE: Records.dfy ===
/** The values that travel between the browser, the edge functions and the store. */
module Records {
  import opened Wrappers

  /** A `{ role, content }` message as sent over the network or saved in a row. */
  datatype WireMessage = WireMessage(role: string, content: string)

  /** One scored area of a grading. */
  datatype Area = Area(name: string, score: int, feedback: string)

  /** The grading object: `likelihood_of_success`, `overall_summary`, `areas`. */
  datatype Grading = Grading(likelihood: int, summary: string, areas: seq<Area>)

  datatype Status = Active | Completed

  function StatusName(s: Status): string {
    match s
    case Active => "active"
    case Completed => "completed"
  }

  /** A row of the `conversations` table. */
  datatype ConversationRow = ConversationRow(
    userId: string,
    bossPersona: string,
    targetRaise: string,
    messages: seq<WireMessage>,
    status: Status,
    grading: Option<Grading>)
}

=== FILE: Screens.dfy ===
/** The page that switches between the landing, setup, chat and voice screens
    (src/pages/Index.tsx). */
module Screens {
  import opened Wrappers
  import opened Personas

  datatype Screen = Landing | Setup | Chat | Voice

  /** `NegotiationConfig`: the persona chosen and the raise asked for. */
  datatype Config = Config(persona: PersonaInfo, targetRaise: string)

  /** What the page renders: one of the four screens with its properties, or nothing. */
  datatype View =
    | LandingView
    | SetupView
    | ChatView(persona: BossPersona, targetRaise: string)
    | VoiceView(info: PersonaInfo, targetAmount: string)
    | NoView

  /** The render function's chain of `if`s. */
  function ViewOf(screen: Screen, config: Option<Config>): (v: View)
    ensures screen == Landing ==> v == LandingView
    ensures screen == Setup ==> v == SetupView
    ensures v.ChatView? <==> screen == Chat && config.Some?
    ensures v.VoiceView? <==> screen == Voice && config.Some?
    ensures v.NoView? <==> (screen == Chat || screen == Voice) && config.None?
    ensures v.ChatView? ==> v.persona == config.value.persona.id && v.targetRaise == config.value.targetRaise
    ensures v.VoiceView? ==> v.info == config.value.persona && v.targetAmount == config.value.targetRaise
  {
    match (screen, config)
    case (Landing, _) => LandingView
    case (Setup, _) => SetupView
    case (Chat, Some(c)) => ChatView(c.persona.id, c.targetRaise)
    case (Voice, Some(c)) => VoiceView(c.persona, c.targetRaise)
    case _ => NoView
  }

  /** The states the handlers can reach: a conversation screen always has its configuration. */
  predicate Consistent(screen: Screen, config: Option<Config>) {
    (screen == Chat || screen == Voice) ==> config.Some?
  }

  class Navigator {
    var currentScreen: Screen
    var config: Option<Config>

    predicate Valid()
      reads this
    {
      Consistent(currentScreen, config)
    }

    /** What the page shows now; in every state the handlers reach, that is a screen. */
    function Rendered(): (v: View)
      reads this
      ensures Valid() ==> !v.NoView?
    {
      ViewOf(currentScreen, config)
    }

    constructor ()
      ensures Valid()
      ensures currentScreen == Landing && config == None
    {
      currentScreen := Landing;
      config := None;
    }

    /** `handleEnterDojo`. */
    method EnterDojo()
      requires Valid()
      modifies this`currentScreen
      ensures Valid()
      ensures currentScreen == Setup && config == old(config)
    {
      currentScreen := Setup;
    }

    /** `handleBackToLanding`. */
    method BackToLanding()
      requires Valid()
      modifies this`currentScreen
      ensures Valid()
      ensures currentScreen == Landing && config == old(config)
    {
      currentScreen := Landing;
    }

    /** `handleStartNegotiation`: remembers the choice and opens the chosen kind of
        conversation. */
    method StartNegotiation(persona: PersonaInfo, targetRaise: string, useVoice: bool)
      requires Valid()
      modifies this
      ensures Valid()
      ensures config == Some(Config(persona, targetRaise))
      ensures currentScreen == if useVoice then Voice else Chat
      ensures Rendered() == if useVoice then VoiceView(persona, targetRaise) else ChatView(persona.id, targetRaise)
    {
      config := Some(Config(persona, targetRaise));
      currentScreen := if useVoice then Voice else Chat;
    }

    /** `handleExitChat`: forgets the choice and returns to setup. */
    method ExitChat()
      requires Valid()
      modifies this
      ensures Valid()
      ensures currentScreen == Setup && config == None
      ensures Rendered() == SetupView
    {
      config := None;
      currentScreen := Setup;
    }
  }
}

=== FILE: SetupForm.dfy ===
/** The setup screen (src/components/Setup.tsx): the chosen persona, the raise typed in and
    the voice switch, and the gate that lets a negotiation start. */
module SetupForm {
  import opened Wrappers
  import opened Text
  import opened Personas

  /** The arguments `handleStart` passes to `onStart`. */
  datatype StartRequest = StartRequest(persona: PersonaInfo, targetRaise: string, useVoice: bool)

  /** `canStart`: a persona is chosen and the raise is not blank. */
  predicate CanStartWith(selected: Option<PersonaInfo>, targetRaise: string) {
    selected.Some? && Trim(targetRaise) != ""
  }

  /** What `handleStart` passes on, if anything. */
  function StartWith(selected: Option<PersonaInfo>, targetRaise: string, useVoice: bool): (r: Option<StartRequest>)
    ensures r.Some? <==> CanStartWith(selected, targetRaise)
    ensures r.Some? ==> r.value.persona == selected.value && r.value.useVoice == useVoice
    ensures r.Some? ==> r.value.targetRaise != [] && !IsJsWhitespace(r.value.targetRaise[0])
                          && !IsJsWhitespace(r.value.targetRaise[|r.value.targetRaise| - 1])
    ensures r.Some? ==> exists i, j :: 0 <= i <= j <= |targetRaise| && r.value.targetRaise == targetRaise[i..j]
                          && AllWhitespace(targetRaise[..i]) && AllWhitespace(targetRaise[j..])
  {
    if selected.Some? && Trim(targetRaise) != "" then Some(StartRequest(selected.value, Trim(targetRaise), useVoice))
    else None
  }

  /** A raise made only of whitespace never lets a negotiation start. */
  lemma BlankRaiseBlocksStart(selected: Option<PersonaInfo>, targetRaise: string, useVoice: bool)
    requires AllWhitespace(targetRaise)
    ensures StartWith(selected, targetRaise, useVoice).None?
  {
  }

  class SetupForm {
    var selectedPersona: Option<PersonaInfo>
    var targetRaise: string
    var useVoice: bool

    constructor ()
      ensures selectedPersona == None && targetRaise == "" && !useVoice
    {
      selectedPersona := None;
      targetRaise := "";
      useVoice := false;
    }

    predicate CanStart()
      reads this
    {
      CanStartWith(selectedPersona, targetRaise)
    }

    /** Whether a persona's card is highlighted (`selectedPersona?.id === persona.id`). */
    predicate IsSelected(p: PersonaInfo)
      reads this
    {
      selectedPersona.Some? && selectedPersona.value.id == p.id
    }

    /** A card's `onSelect`: the new choice replaces the old one, so exactly that card is
        highlighted among the catalogue's. */
    method SelectPersona(p: PersonaInfo)
      modifies this`selectedPersona
      ensures selectedPersona == Some(p)
      ensures forall i :: 0 <= i < |BossPersonas| ==> (IsSelected(BossPersonas[i]) <==> BossPersonas[i].id == p.id)
    {
      selectedPersona := Some(p);
    }

    /** The raise field's `onChange`. */
    method SetTargetRaise(value: string)
      modifies this`targetRaise
      ensures targetRaise == value
    {
      targetRaise := value;
    }

    /** The text-or-voice switch. */
    method SetUseVoice(value: bool)
      modifies this`useVoice
      ensures useVoice == value
    {
      useVoice := value;
    }

    /** `handleStart`: returns what it passes to `onStart`, or nothing when the gate is
        closed; the form itself is left as it is. */
    method HandleStart() returns (start: Option<StartRequest>)
      ensures start.Some? <==> CanStart()
      ensures start == StartWith(selectedPersona, targetRaise, useVoice)
    {
      start := None;
      if selectedPersona.Some? {
        var trimmed := Trim(targetRaise);
        if trimmed != "" {
          start := Some(StartRequest(selectedPersona.value, trimmed, useVoice));
        }
      }
    }
  }
}

=== FILE: Tactics.dfy ===
/** The coaching-tip classifier of the chat relay (`analyzeUserMessage` and `COACHING_TIPS`
    in supabase/functions/negotiation-chat/index.ts): nine case-insensitive regular
    expressions tried in a fixed order, the first that matches choosing the tip. */
module Tactics {
  import opened Wrappers
  import opened Text

  /** One position of a pattern: a literal (lower-case) character or `\d`. */
  datatype Sym = Ch(c: char) | Digit

  type Pattern = seq<Sym>

  predicate IsDigit(c: char) {
    '0' <= c <= '9'
  }

  /** Whether a message character matches a pattern position under the `i` flag. */
  predicate Fits(c: char, s: Sym) {
    match s
    case Ch(x) => FoldCase(c) == x
    case Digit => IsDigit(c)
  }

  predicate MatchesAt(m: string, i: int, p: Pattern) {
    0 <= i && i + |p| <= |m| && forall k :: 0 <= k < |p| ==> Fits(m[i + k], p[k])
  }

  /** The pattern matches somewhere in the message. */
  predicate Occurs(m: string, p: Pattern) {
    exists i :: 0 <= i <= |m| - |p| && MatchesAt(m, i, p)
  }

  /** The literal word `w` occurs at `i`, in any case. */
  predicate WordAt(m: string, i: int, w: string) {
    0 <= i && i + |w| <= |m| && forall k :: 0 <= k < |w| ==> FoldCase(m[i + k]) == w[k]
  }

  predicate HasWord(m: string, w: string) {
    exists i :: 0 <= i <= |m| - |w| && WordAt(m, i, w)
  }

  /** One alternative of a regular expression: a literal word, a fixed run of positions,
      a word directly followed by such a run, or `lead.*tail`, where `.` matches anything
      except a line terminator. */
  datatype Alt =
    | Lit(w: string)
    | Pat(p: Pattern)
    | Then(lead: string, next: Pattern)
    | Spread(lead: string, tail: Pattern)

  predicate AltMatches(m: string, a: Alt) {
    match a
    case Lit(w) => HasWord(m, w)
    case Pat(p) => Occurs(m, p)
    case Then(lead, next) =>
      exists i :: 0 <= i <= |m| - |lead| - |next| && WordAt(m, i, lead) && MatchesAt(m, i + |lead|, next)
    case Spread(lead, tail) =>
      exists i, j :: 0 <= i && i + |lead| <= j <= |m| - |tail| && WordAt(m, i, lead) && MatchesAt(m, j, tail)
                     && forall k :: i + |lead| <= k < j ==> !IsLineTerminator(m[k])
  }

  /** `/a1|a2|...|an/i.test(m)`. */
  predicate AnyAlt(m: string, alts: seq<Alt>) {
    exists k :: 0 <= k < |alts| && AltMatches(m, alts[k])
  }

  /** Alternatives that are plain words. */
  function Lits(ws: seq<string>): (alts: seq<Alt>)
    ensures |alts| == |ws| && forall k :: 0 <= k < |ws| ==> alts[k] == Lit(ws[k])
  {
    seq(|ws|, k requires 0 <= k < |ws| => Lit(ws[k]))
  }

  const DigitPercent: Pattern := [Digit, Ch('%')]

  const ApologyWords: seq<string> :=
    ["sorry", "apologize", "i know this is bad timing", "hate to ask", "don't want to bother"]
  const HedgeWords: seq<string> :=
    ["i think i deserve", "i feel like", "maybe", "kind of", "sort of", "a bit more"]
  const WeakAskWords: seq<string> :=
    ["was wondering", "would it be possible", "is there any chance", "could you maybe"]
  const HardshipWords: seq<string> :=
    ["i need", "bills", "family", "expenses", "struggling", "stressed"]
  const ComparisonWords: seq<string> :=
    ["market rate", "industry standard", "glassdoor", "linkedin", "competitive", "other companies", "offers"]
  const FutureWords: seq<string> :=
    ["plan to", "going to", "will deliver", "next quarter", "upcoming", "roadmap", "initiative"]
  const ConfidentWords: seq<string> :=
    ["i've delivered", "i have proven", "my track record", "i've consistently", "i bring", "i contribute"]

  /** `/\d+%|\$\d+|increased|grew|saved|generated/i`: a `\d+` run ends in a digit, so `\d+%`
      matches exactly where a digit is directly followed by `%`. */
  const EvidenceAlts: seq<Alt> :=
    [Pat(DigitPercent), Pat([Ch('$'), Digit])] + Lits(["increased", "grew", "saved", "generated"])

  /** `/\d+%|increased.*\d|saved.*\$|generated.*\$|grew.*\d|revenue|profit|efficiency/i`. */
  const AchievementAlts: seq<Alt> :=
    [Pat(DigitPercent),
     Spread("increased", [Digit]), Spread("saved", [Ch('$')]),
     Spread("generated", [Ch('$')]), Spread("grew", [Digit])]
    + Lits(["revenue", "profit", "efficiency"])

  /** `/\$\d{2,}|asking for \d|requesting \d|\d{2,}k|\d{2,},\d{3}/i`, each unanchored
      repetition reduced to the shortest run it needs. */
  const AnchorAlts: seq<Alt> :=
    [Pat([Ch('$'), Digit, Digit]),
     Then("asking for ", [Digit]), Then("requesting ", [Digit]),
     Pat([Digit, Digit, Ch('k')]),
     Pat([Digit, Digit, Ch(','), Digit, Digit, Digit])]

  /** The keys of `COACHING_TIPS`. */
  datatype TipKey =
    | Vague | Emotional | Apologetic | Comparison | Achievement
    | Deflecting | Future | Weak | Strong | Anchor

  datatype CoachingTip = CoachingTip(tactic: string, tip: string)

  /** The `tactic` of `COACHING_TIPS[k]`. */
  function TacticName(k: TipKey): string {
    match k
    case Vague => "Be Specific"
    case Emotional => "Use Data"
    case Apologetic => "Own Your Value"
    case Comparison => "Market Research"
    case Achievement => "Strong Evidence"
    case Deflecting => "Stay Focused"
    case Future => "Future Value"
    case Weak => "Be Assertive"
    case Strong => "Perfect Tone"
    case Anchor => "Anchoring"
  }

  /** The `tip` of `COACHING_TIPS[k]`. */
  function TipText(k: TipKey): string {
    match k
    case Vague =>
      "Try quantifying your contributions with specific numbers, percentages, or dollar amounts."
    case Emotional =>
      "Emotions are valid, but back them up with concrete examples of your impact."
    case Apologetic =>
      "Avoid apologizing for asking. You've earned the right to this conversation."
    case Comparison =>
      "Good use of market data! Make sure you have sources ready if challenged."
    case Achievement =>
      "Great job highlighting achievements! Keep emphasizing measurable results."
    case Deflecting =>
      "Don't let the conversation shift. Redirect back to your value and request."
    case Future =>
      "Smart! Showing future value demonstrates you're thinking about the company's success."
    case Weak =>
      "Avoid weak language like 'maybe' or 'I was wondering.' State your case confidently."
    case Strong =>
      "Excellent confident tone without being aggressive. Keep this energy!"
    case Anchor =>
      "You've set an anchor point. Be prepared to negotiate from here, not against yourself."
  }

  /** `COACHING_TIPS[k]`. */
  function TipFor(k: TipKey): CoachingTip {
    CoachingTip(TacticName(k), TipText(k))
  }

  /** A rule of the chain: it fires when one of `when` matches and none of `unless` does. */
  datatype Rule = Rule(when: seq<Alt>, unless: seq<Alt>, key: TipKey)

  predicate Fires(m: string, r: Rule) {
    AnyAlt(m, r.when) && !AnyAlt(m, r.unless)
  }

  const ApologyRule := Rule(Lits(ApologyWords), [], Apologetic)
  const HedgeRule := Rule(Lits(HedgeWords), [], Vague)
  const WeakAskRule := Rule(Lits(WeakAskWords), [], Weak)
  /** Hardship words, unless backed by evidence. */
  const HardshipRule := Rule(Lits(HardshipWords), EvidenceAlts, Emotional)
  const AchievementRule := Rule(AchievementAlts, [], Achievement)
  const ComparisonRule := Rule(Lits(ComparisonWords), [], Comparison)
  const FutureRule := Rule(Lits(FutureWords), [], Future)
  const ConfidentRule := Rule(Lits(ConfidentWords), [], Strong)
  const AnchorRule := Rule(AnchorAlts, [], Anchor)

  /** The nine `if`s of `analyzeUserMessage`, in the order the source tries them. */
  const Rules: seq<Rule> := [
    ApologyRule, HedgeRule, WeakAskRule, HardshipRule, AchievementRule,
    ComparisonRule, FutureRule, ConfidentRule, AnchorRule
  ]

  /** The position of the first rule that fires, or -1 when none does. */
  function FirstFiring(m: string, rules: seq<Rule>): (i: int)
    ensures -1 <= i < |rules|
    ensures i >= 0 ==> Fires(m, rules[i])
    ensures forall j :: 0 <= j < |rules| && (i < 0 || j < i) ==> !Fires(m, rules[j])
  {
    if rules == [] then -1
    else if Fires(m, rules[0]) then 0
    else
      var i := FirstFiring(m, rules[1..]);
      assert forall j :: 1 <= j < |rules| ==> rules[j] == rules[1..][j - 1];
      if i < 0 then -1 else i + 1
  }

  /** The key of the first rule that fires, if any. */
  function FirstMatch(m: string, rules: seq<Rule>): (r: Option<TipKey>)
    ensures r.None? <==> forall i :: 0 <= i < |rules| ==> !Fires(m, rules[i])
    ensures r.Some? ==> exists i :: 0 <= i < |rules| && Fires(m, rules[i]) && rules[i].key == r.value
                                    && forall j :: 0 <= j < i ==> !Fires(m, rules[j])
  {
    var i := FirstFiring(m, rules);
    if i < 0 then None else Some(rules[i].key)
  }

  /** The rule at `i` decides when it fires and no earlier rule does. */
  lemma FirstMatchPicks(m: string, rules: seq<Rule>, i: nat)
    requires i < |rules| && Fires(m, rules[i])
    requires forall j :: 0 <= j < i ==> !Fires(m, rules[j])
    ensures FirstMatch(m, rules) == Some(rules[i].key)
  {
    var r := FirstMatch(m, rules);
    var i' :| 0 <= i' < |rules| && Fires(m, rules[i']) && rules[i'].key == r.value
              && forall j :: 0 <= j < i' ==> !Fires(m, rules[j]);
    assert !(i' < i) && !(i < i');
  }

  /** The catalogue tip of the first rule of `rules` that fires. */
  function TipOfFirst(m: string, rules: seq<Rule>): (r: Option<CoachingTip>)
    ensures r.None? <==> forall i :: 0 <= i < |rules| ==> !Fires(m, rules[i])
    ensures r.Some? ==> exists i :: 0 <= i < |rules| && Fires(m, rules[i]) && r.value == TipFor(rules[i].key)
                                    && forall j :: 0 <= j < i ==> !Fires(m, rules[j])
  {
    var i := FirstFiring(m, rules);
    if i < 0 then None else Some(TipFor(rules[i].key))
  }

  /** The tip of the chain is the catalogue entry of the key `FirstMatch` picks. */
  lemma TipOfFirstMatch(m: string, rules: seq<Rule>)
    ensures TipOfFirst(m, rules) == if FirstMatch(m, rules).None? then None else Some(TipFor(FirstMatch(m, rules).value))
  {
  }

  /** `analyzeUserMessage`: the catalogue tip of the first rule that fires, `null` when
      none does. */
  function AnalyzeUserMessage(m: string): (r: Option<CoachingTip>)
    ensures r.None? <==> forall i :: 0 <= i < |Rules| ==> !Fires(m, Rules[i])
    ensures r.Some? ==> exists i :: 0 <= i < |Rules| && Fires(m, Rules[i]) && r.value == TipFor(Rules[i].key)
                                    && forall j :: 0 <= j < i ==> !Fires(m, Rules[j])
  {
    TipOfFirst(m, Rules)
  }

  /** The key each rule of the chain carries. */
  lemma RuleKeys()
    ensures |Rules| == 9
    ensures forall i :: 0 <= i < |Rules| ==> Rules[i].key != Deflecting
    ensures forall i :: 0 <= i < |Rules| && Rules[i].key == Emotional ==> i == 3
  {
    var keys := [Apologetic, Vague, Weak, Emotional, Achievement, Comparison, Future, Strong, Anchor];
    assert forall i :: 0 <= i < |Rules| ==> Rules[i].key == keys[i];
  }

  /** A rule chain never yields the tip of key `k` when every rule that carries `k` stays
      silent. */
  lemma FirstMatchAvoids(m: string, rules: seq<Rule>, k: TipKey)
    requires forall i :: 0 <= i < |rules| ==> rules[i].key != k || !Fires(m, rules[i])
    ensures FirstMatch(m, rules) != Some(k)
  {
  }

  /** No two entries of the catalogue share a tactic name: the length and the first letter
      of the name already tell them apart. */
  lemma TacticNamesDistinct(a: TipKey, b: TipKey)
    requires a != b
    ensures TacticName(a) != TacticName(b)
  {
    var na, nb := TacticName(a), TacticName(b);
    assert |na| != |nb| || na[0] != nb[0];
  }

  /** Distinct keys give distinct catalogue entries. */
  lemma TipsDistinct(a: TipKey, b: TipKey)
    requires a != b
    ensures TipFor(a) != TipFor(b)
  {
    TacticNamesDistinct(a, b);
  }

  /** The "deflecting" entry is never returned: every tip comes from one of the nine rules,
      none of which carries that key. */
  lemma NeverStayFocused(m: string)
    ensures AnalyzeUserMessage(m) != Some(TipFor(Deflecting))
  {
    RuleKeys();
    FirstMatchAvoids(m, Rules, Deflecting);
    var r := FirstMatch(m, Rules);
    if r.Some? {
      TacticNamesDistinct(r.value, Deflecting);
    }
  }

  /** A literal alternative matches wherever its word does. */
  lemma LitMatches(m: string, ws: seq<string>, k: nat, i: nat)
    requires k < |ws| && WordAt(m, i, ws[k])
    ensures AnyAlt(m, Lits(ws))
  {
    assert AltMatches(m, Lits(ws)[k]);
  }

  /** An apology word anywhere in the message, in any case, yields "Own Your Value",
      whatever else the message says. */
  lemma ApologyWins(before: string, said: string, after: string, k: nat)
    requires k < |ApologyWords|
    requires |said| == |ApologyWords[k]|
    requires forall j :: 0 <= j < |said| ==> FoldCase(said[j]) == ApologyWords[k][j]
    ensures AnalyzeUserMessage(before + said + after) == Some(TipFor(Apologetic))
  {
    var m := before + said + after;
    forall j | 0 <= j < |said| ensures FoldCase(m[|before| + j]) == ApologyWords[k][j] {
      assert m[|before| + j] == said[j];
    }
    LitMatches(m, ApologyWords, k, |before|);
    FirstMatchPicks(m, Rules, 0);
  }

  /** A hedge such as "maybe" is caught by the second rule before the weak-ask rule can
      see the message, so a message with both gets the "Be Specific" entry (which
      `TipsDistinct` tells apart from the "Be Assertive" one). */
  lemma HedgeBeatsWeakAsk(m: string)
    requires !Fires(m, ApologyRule) && Fires(m, HedgeRule) && Fires(m, WeakAskRule)
    ensures AnalyzeUserMessage(m) == Some(TipFor(Vague))
  {
    FirstMatchPicks(m, Rules, 1);
    TipOfFirstMatch(m, Rules);
  }

  /** A message with a hardship word and no earlier rule firing gets "Use Data" exactly
      when it mentions no evidence. */
  lemma UseDataOnlyWithoutEvidence(m: string)
    requires !Fires(m, ApologyRule) && !Fires(m, HedgeRule) && !Fires(m, WeakAskRule)
    requires AnyAlt(m, HardshipRule.when)
    ensures AnalyzeUserMessage(m) == Some(TipFor(Emotional)) <==> !AnyAlt(m, EvidenceAlts)
  {
    if AnyAlt(m, EvidenceAlts) {
      EvidenceSilencesUseData(m);
    } else {
      FirstMatchPicks(m, Rules, 3);
    }
  }

  /** Once the hardship rule is silenced, no later rule carries the "Use Data" tip. */
  lemma EvidenceSilencesUseData(m: string)
    requires !Fires(m, ApologyRule) && !Fires(m, HedgeRule) && !Fires(m, WeakAskRule)
    requires AnyAlt(m, EvidenceAlts)
    ensures AnalyzeUserMessage(m) != Some(TipFor(Emotional))
  {
    assert !Fires(m, Rules[3]);
    RuleKeys();
    FirstMatchAvoids(m, Rules, Emotional);
    TipOfFirstMatch(m, Rules);
    var r := FirstMatch(m, Rules);
    if r.Some? {
      TipsDistinct(r.value, Emotional);
    }
  }

  /** A hardship message that also quotes a percentage falls through to "Strong Evidence". */
  lemma HardshipWithPercentIsEvidence(m: string, i: nat)
    requires !Fires(m, ApologyRule) && !Fires(m, HedgeRule) && !Fires(m, WeakAskRule)
    requires MatchesAt(m, i, DigitPercent)
    ensures AnalyzeUserMessage(m) == Some(TipFor(Achievement))
  {
    assert AltMatches(m, EvidenceAlts[0]);
    assert !Fires(m, HardshipRule);
    assert AltMatches(m, AchievementAlts[0]);
    FirstMatchPicks(m, Rules, 4);
  }

  /** No alternative matches the empty string unless it is empty itself. */
  lemma NothingMatchesEmpty(alts: seq<Alt>)
    requires forall k :: 0 <= k < |alts| ==> NonEmpty(alts[k])
    ensures !AnyAlt("", alts)
  {
  }

  predicate NonEmpty(a: Alt) {
    match a
    case Lit(w) => w != []
    case Pat(p) => p != []
    case Then(lead, next) => lead != [] || next != []
    case Spread(lead, tail) => lead != []
  }

  lemma NoWordMatchesEmpty(ws: seq<string>)
    requires forall k :: 0 <= k < |ws| ==> ws[k] != []
    ensures !AnyAlt("", Lits(ws))
  {
    NothingMatchesEmpty(Lits(ws));
  }

  /** The empty message gets no tip: every rule needs at least one character. */
  lemma EmptyMessageGetsNoTip()
    ensures AnalyzeUserMessage("") == None
  {
    RulesNeedText();
    assert forall i :: 0 <= i < |Rules| ==> !AnyAlt("", Rules[i].when);
  }

  lemma RulesNeedText()
    ensures !AnyAlt("", ApologyRule.when) && !AnyAlt("", HedgeRule.when) && !AnyAlt("", WeakAskRule.when)
    ensures !AnyAlt("", HardshipRule.when) && !AnyAlt("", AchievementRule.when)
    ensures !AnyAlt("", ComparisonRule.when) && !AnyAlt("", FutureRule.when)
    ensures !AnyAlt("", ConfidentRule.when) && !AnyAlt("", AnchorRule.when)
  {
    NoWordMatchesEmpty(ApologyWords);
    NoWordMatchesEmpty(HedgeWords);
    NoWordMatchesEmpty(WeakAskWords);
    NoWordMatchesEmpty(HardshipWords);
    NothingMatchesEmpty(AchievementAlts);
    NoWordMatchesEmpty(ComparisonWords);
    NoWordMatchesEmpty(FutureWords);
    NoWordMatchesEmpty(ConfidentWords);
    NothingMatchesEmpty(AnchorAlts);
  }

  /** A word cannot occur where one of its characters never does. */
  lemma WordNeedsChar(m: string, w: string, j: nat)
    requires j < |w|
    requires forall i :: 0 <= i < |m| ==> FoldCase(m[i]) != w[j]
    ensures !HasWord(m, w)
  {
    forall i | 0 <= i <= |m| - |w| ensures !WordAt(m, i, w) {
      assert FoldCase(m[i + j]) != w[j];
    }
  }

  /** Nor where two of its adjacent characters never stand side by side. */
  lemma WordNeedsPair(m: string, w: string, j: nat)
    requires j + 1 < |w|
    requires forall i :: 0 <= i < |m| - 1 ==> !(FoldCase(m[i]) == w[j] && FoldCase(m[i + 1]) == w[j + 1])
    ensures !HasWord(m, w)
  {
    forall i | 0 <= i <= |m| - |w| ensures !WordAt(m, i, w) {
      assert !(FoldCase(m[i + j]) == w[j] && FoldCase(m[i + j + 1]) == w[j + 1]);
    }
  }

  /** "I was wondering if maybe I could get a small raise" */
  const WonderingMessage: string :=
    "I was wo" + "ndering " + "if maybe" + " I could" + " get a s" + "mall rai" + "se"

  /** The message hedges with "maybe"... */
  lemma WonderingMessageHedges()
    ensures Fires(WonderingMessage, HedgeRule)
  {
    assert WordAt(WonderingMessage, 19, HedgeWords[2]);
    LitMatches(WonderingMessage, HedgeWords, 2, 19);
  }

  /** ...and asks weakly with "was wondering". */
  lemma WonderingMessageAsksWeakly()
    ensures Fires(WonderingMessage, WeakAskRule)
  {
    assert WordAt(WonderingMessage, 2, WeakAskWords[0]);
    LitMatches(WonderingMessage, WeakAskWords, 0, 2);
  }

  /** It has no p, no k and no apostrophe, in either case... */
  lemma WonderingMessageLacks(c: char)
    requires c == 'p' || c == 'k' || c == '\''
    ensures forall i :: 0 <= i < |WonderingMessage| ==> FoldCase(WonderingMessage[i]) != c
  {
  }

  /** ...and no double r. */
  lemma WonderingMessageHasNoDoubleR()
    ensures forall i :: 0 <= i < |WonderingMessage| - 1 ==>
              !(FoldCase(WonderingMessage[i]) == 'r' && FoldCase(WonderingMessage[i + 1]) == 'r')
  {
  }

  /** So it says none of the apology words. */
  lemma WonderingMessageApologizesNot()
    ensures !Fires(WonderingMessage, ApologyRule)
  {
    var m := WonderingMessage;
    WonderingMessageLacks('p');
    WonderingMessageLacks('k');
    WonderingMessageLacks('\'');
    WonderingMessageHasNoDoubleR();
    WordNeedsPair(m, ApologyWords[0], 2);
    WordNeedsChar(m, ApologyWords[1], 1);
    WordNeedsChar(m, ApologyWords[2], 2);
    WordNeedsChar(m, ApologyWords[3], 10);
    WordNeedsChar(m, ApologyWords[4], 3);
    NoWordMatches(m, ApologyWords);
  }

  /** A list of words matches only where one of them occurs. */
  lemma NoWordMatches(m: string, ws: seq<string>)
    requires forall k :: 0 <= k < |ws| ==> !HasWord(m, ws[k])
    ensures !AnyAlt(m, Lits(ws))
  {
  }

  /** So it gets "Be Specific" rather than "Be Assertive". */
  lemma WonderingMessageIsVague()
    ensures AnalyzeUserMessage(WonderingMessage) == Some(TipFor(Vague))
  {
    WonderingMessageHedges();
    WonderingMessageAsksWeakly();
    WonderingMessageApologizesNot();
    HedgeBeatsWeakAsk(WonderingMessage);
  }
}

=== FILE: TensionBar.dfy ===
/** The tension meter (src/components/TensionBar.tsx): a label and a colour chosen from
    the level by two separate if-chains, and a bar whose width is the level. */
module TensionBar {
  import opened Text

  /** `getLabel`. */
  function Label(level: int): string {
    if level < 30 then "Calm"
    else if level < 60 then "Tense"
    else if level < 80 then "Heated"
    else "Critical"
  }

  /** `getColor`. */
  function Color(level: int): string {
    if level < 30 then "bg-green-500"
    else if level < 60 then "bg-yellow-500"
    else if level < 80 then "bg-orange-500"
    else "bg-red-500"
  }

  /** The position of a label in the order Calm, Tense, Heated, Critical. */
  function LabelRank(name: string): nat {
    if name == "Calm" then 0
    else if name == "Tense" then 1
    else if name == "Heated" then 2
    else 3
  }

  /** Label and colour agree band for band, in both directions. */
  lemma LabelAgreesWithColor(level: int)
    ensures Label(level) == "Calm" <==> Color(level) == "bg-green-500"
    ensures Label(level) == "Tense" <==> Color(level) == "bg-yellow-500"
    ensures Label(level) == "Heated" <==> Color(level) == "bg-orange-500"
    ensures Label(level) == "Critical" <==> Color(level) == "bg-red-500"
  {
    var labels := ["Calm", "Tense", "Heated", "Critical"];
    var colors := ["bg-green-500", "bg-yellow-500", "bg-orange-500", "bg-red-500"];
    assert labels[0][0] != labels[1][0] && labels[2][0] != labels[3][0];
    assert labels[0] != labels[2] && labels[0] != labels[3] && labels[1] != labels[2] && labels[1] != labels[3];
    assert colors[0][3] != colors[1][3] && colors[0][3] != colors[2][3] && colors[0][3] != colors[3][3];
    assert colors[1][3] != colors[2][3] && colors[1][3] != colors[3][3] && colors[2][3] != colors[3][3];
  }

  /** A higher level never shows a calmer label. */
  lemma LabelMonotone(a: int, b: int)
    requires a <= b
    ensures LabelRank(Label(a)) <= LabelRank(Label(b))
  {
    assert "Calm" != "Tense" && "Calm" != "Heated" && "Tense" != "Heated";
  }

  /** Each threshold belongs to the band above it. */
  lemma BoundariesGoUp(level: int)
    ensures Label(level) == "Tense" <==> 30 <= level < 60
    ensures Label(level) == "Critical" <==> level >= 80
  {
    assert "Calm" != "Tense" && "Tense" != "Heated" && "Tense" != "Critical";
    assert "Calm" != "Critical" && "Heated" != "Critical";
  }

  /** The bar's `width` style: the level followed by `%`, not clamped to 0..100. */
  function Width(level: int): (w: string)
    ensures |w| >= 2 && w[|w| - 1] == '%'
  {
    IntToString(level) + "%"
  }

  /** The width names the level exactly, whatever its value: distinct levels, including
      ones beyond 100 or below 0, give distinct widths. */
  lemma WidthNamesLevel(a: int, b: int)
    requires Width(a) == Width(b)
    ensures a == b
  {
    assert IntToString(a) == Width(a)[..|Width(a)| - 1];
    assert IntToString(b) == Width(b)[..|Width(b)| - 1];
    IntToStringInjective(a, b);
  }
}

=== FILE: Text.dfy ===
/** String operations the source borrows from JavaScript: the case folding of `/i` regular
    expressions, `String.prototype.trim`, `Array.prototype.join`, substring search and the
    decimal rendering of numbers in template literals. */
module Text {

  /** ASCII case folding. A JavaScript `/i` regular expression without the `u` flag
      canonicalises characters by upper-casing them, but never maps a non-ASCII character
      onto an ASCII one; so against a pattern written in lower-case ASCII, a character
      matches exactly when its ASCII lower-case form is the pattern character. */
  function FoldCase(c: char): (r: char)
    ensures !('A' <= r <= 'Z')
    ensures r != c ==> 'A' <= c <= 'Z'
    ensures 'a' <= r <= 'z' <==> 'a' <= c <= 'z' || 'A' <= c <= 'Z'
  {
    if 'A' <= c <= 'Z' then (c as int + 32) as char else c
  }

  /** The characters `.` in a JavaScript regular expression does not match. */
  predicate IsLineTerminator(c: char) {
    c == '\n' || c == '\r' || c == '\U{2028}' || c == '\U{2029}'
  }

  /** The WhiteSpace and LineTerminator characters that `String.prototype.trim` removes. */
  predicate IsJsWhitespace(c: char) {
    || c == '\t' || c == '\n' || c == '\U{000B}' || c == '\U{000C}' || c == '\r' || c == ' '
    || c == '\U{00A0}' || c == '\U{1680}' || ('\U{2000}' <= c <= '\U{200A}')
    || c == '\U{2028}' || c == '\U{2029}' || c == '\U{202F}' || c == '\U{205F}'
    || c == '\U{3000}' || c == '\U{FEFF}'
  }

  predicate AllWhitespace(s: string) {
    forall k :: 0 <= k < |s| ==> IsJsWhitespace(s[k])
  }

  /** `s` with its leading whitespace removed. */
  function TrimStart(s: string): (r: string)
    ensures |r| <= |s| && r == s[|s| - |r|..]
    ensures AllWhitespace(s[..|s| - |r|])
    ensures r == [] || !IsJsWhitespace(r[0])
  {
    if s != [] && IsJsWhitespace(s[0]) then TrimStart(s[1..]) else s
  }

  /** `s` with its trailing whitespace removed. */
  function TrimEnd(s: string): (r: string)
    ensures |r| <= |s| && r == s[..|r|]
    ensures AllWhitespace(s[|r|..])
    ensures r == [] || !IsJsWhitespace(r[|r| - 1])
  {
    if s != [] && IsJsWhitespace(s[|s| - 1]) then TrimEnd(s[..|s| - 1]) else s
  }

  /** `String.prototype.trim`: the longest infix of `s` that neither starts nor ends with
      whitespace, once only whitespace has been cut away on either side. */
  function Trim(s: string): (r: string)
    ensures exists i, j :: 0 <= i <= j <= |s| && r == s[i..j]
                        && AllWhitespace(s[..i]) && AllWhitespace(s[j..])
    ensures r == [] || (!IsJsWhitespace(r[0]) && !IsJsWhitespace(r[|r| - 1]))
    ensures r == [] <==> AllWhitespace(s)
  {
    TrimPieces(s);
    TrimEnd(TrimStart(s))
  }

  lemma TrimPieces(s: string)
    ensures var r := TrimEnd(TrimStart(s));
            && (exists i, j :: 0 <= i <= j <= |s| && r == s[i..j]
                              && AllWhitespace(s[..i]) && AllWhitespace(s[j..]))
            && (r == [] || (!IsJsWhitespace(r[0]) && !IsJsWhitespace(r[|r| - 1])))
            && (r == [] <==> AllWhitespace(s))
  {
    var t := TrimStart(s);
    var r := TrimEnd(t);
    var i := |s| - |t|;
    assert r == s[i..i + |r|];
    assert s[i + |r|..] == t[|r|..];
    if r == [] {
      assert t[|r|..] == t;
      assert t == [];
      assert s[..i] == s;
    } else {
      assert r[0] == t[0] == s[i];
      assert !IsJsWhitespace(s[i]);
    }
  }

  /** `Array.prototype.join`: the parts with `sep` between consecutive ones. */
  function Join(parts: seq<string>, sep: string): string {
    if parts == [] then ""
    else if |parts| == 1 then parts[0]
    else parts[0] + sep + Join(parts[1..], sep)
  }

  /** Appending a part appends the separator and that part, and nothing else. */
  lemma {:induction false} JoinSnoc(parts: seq<string>, last: string, sep: string)
    requires parts != []
    ensures Join(parts + [last], sep) == Join(parts, sep) + sep + last
  {
    if |parts| == 1 {
      assert (parts + [last])[1..] == [last];
    } else {
      assert (parts + [last])[1..] == parts[1..] + [last];
      JoinSnoc(parts[1..], last, sep);
    }
  }

  predicate StartsWith(s: string, prefix: string) {
    |prefix| <= |s| && s[..|prefix|] == prefix
  }

  predicate OccursAt(s: string, i: int, t: string) {
    0 <= i && i + |t| <= |s| && s[i..i + |t|] == t
  }

  /** `s.includes(t)`. */
  predicate Contains(s: string, t: string) {
    exists i :: 0 <= i <= |s| - |t| && OccursAt(s, i, t)
  }

  /** Whatever surrounds a string, the whole contains it. */
  lemma ContainsInside(a: string, t: string, b: string)
    ensures OccursAt(a + t + b, |a|, t)
    ensures Contains(a + t + b, t)
  {
    var s := a + t + b;
    assert s[|a|..|a| + |t|] == t;
    assert OccursAt(s, |a|, t);
  }

  /** A string starts with anything it is built from on the left. */
  lemma StartsWithLeft(a: string, b: string)
    ensures StartsWith(a + b, a)
  {
    assert (a + b)[..|a|] == a;
  }

  /** Containment is transitive. */
  lemma ContainsTransitive(s: string, t: string, u: string)
    requires Contains(s, t) && Contains(t, u)
    ensures Contains(s, u)
  {
    var i :| 0 <= i <= |s| - |t| && OccursAt(s, i, t);
    var j :| 0 <= j <= |t| - |u| && OccursAt(t, j, u);
    forall k | 0 <= k < |u| ensures s[i + j + k] == u[k] {
      assert s[i + j + k] == s[i..i + |t|][j + k] == t[j + k] == t[j..j + |u|][k];
    }
    assert s[i + j..i + j + |u|] == u;
    assert OccursAt(s, i + j, u);
  }

  /** Text assembled from consecutive pieces, as a template literal assembles its parts. */
  function Concat(pieces: seq<string>): string {
    if pieces == [] then "" else pieces[0] + Concat(pieces[1..])
  }

  lemma {:induction false} ConcatSplit(pieces: seq<string>, k: nat)
    requires k <= |pieces|
    ensures Concat(pieces) == Concat(pieces[..k]) + Concat(pieces[k..])
  {
    if k > 0 {
      ConcatSplit(pieces[1..], k - 1);
      assert pieces[1..][..k - 1] == pieces[..k][1..];
      assert pieces[1..][k - 1..] == pieces[k..];
    }
  }

  lemma ConcatThree(a: string, b: string, c: string)
    ensures Concat([a, b, c]) == a + b + c
  {
    assert [a, b, c][1..] == [b, c] && [b, c][1..] == [c] && [c][1..] == [];
    assert Concat([c]) == c;
    assert Concat([b, c]) == b + c;
  }

  lemma AppendAssociates(a: string, b: string, c: string)
    ensures a + (b + c) == a + b + c
  {
  }

  /** Every run of consecutive pieces occurs in the assembled text. */
  lemma ConcatContainsRun(pieces: seq<string>, k: nat, n: nat)
    requires k + n <= |pieces|
    ensures Contains(Concat(pieces), Concat(pieces[k..k + n]))
  {
    ConcatSplit(pieces, k);
    ConcatSplit(pieces[k..], n);
    assert pieces[k..][..n] == pieces[k..k + n];
    var a, m, b := Concat(pieces[..k]), Concat(pieces[k..k + n]), Concat(pieces[k..][n..]);
    assert Concat(pieces) == a + (m + b);
    AppendAssociates(a, m, b);
    ContainsInside(a, m, b);
  }

  /** In particular every single piece does. */
  lemma ConcatContainsPiece(pieces: seq<string>, k: nat)
    requires k < |pieces|
    ensures Contains(Concat(pieces), pieces[k])
  {
    ConcatContainsRun(pieces, k, 1);
    var one := pieces[k..k + 1];
    assert one[0] == pieces[k] && one[1..] == [];
    assert Concat(one) == pieces[k] + Concat(one[1..]) == pieces[k];
  }

  function DigitChar(d: nat): (c: char)
    requires d < 10
    ensures '0' <= c <= '9'
  {
    ('0' as int + d) as char
  }

  predicate IsDigitString(s: string) {
    forall k :: 0 <= k < |s| ==> '0' <= s[k] <= '9'
  }

  /** The number that a string of decimal digits denotes. */
  function DecimalValue(s: string): nat
    requires IsDigitString(s)
  {
    if s == [] then 0 else DecimalValue(s[..|s| - 1]) * 10 + (s[|s| - 1] as int - '0' as int)
  }

  /** How a template literal renders a natural number: its shortest decimal digits. */
  function NatToString(n: nat): (r: string)
    ensures r != [] && IsDigitString(r)
    ensures |r| > 1 ==> r[0] != '0'
  {
    if n < 10 then [DigitChar(n)] else NatToString(n / 10) + [DigitChar(n % 10)]
  }

  /** Reading back the rendered digits gives the number. */
  lemma {:induction false} DecimalRoundTrip(n: nat)
    ensures DecimalValue(NatToString(n)) == n
  {
    if n >= 10 {
      var r := NatToString(n);
      assert r[..|r| - 1] == NatToString(n / 10);
      DecimalRoundTrip(n / 10);
    }
  }

  /** How a template literal renders an integer. */
  function IntToString(i: int): (r: string)
    ensures r != []
    ensures i < 0 <==> r[0] == '-'
  {
    if i < 0 then "-" + NatToString(-i) else NatToString(i)
  }

  /** Distinct naturals have distinct decimal renderings. */
  lemma NatToStringInjective(x: nat, y: nat)
    requires NatToString(x) == NatToString(y)
    ensures x == y
  {
    DecimalRoundTrip(x);
    DecimalRoundTrip(y);
  }

  /** Distinct integers have distinct decimal renderings. */
  lemma IntToStringInjective(a: int, b: int)
    requires IntToString(a) == IntToString(b)
    ensures a == b
  {
    if a < 0 && b < 0 {
      var s := IntToString(a);
      assert s[1..] == NatToString(-a);
      assert s[1..] == NatToString(-b);
      NatToStringInjective(-a, -b);
    } else if a >= 0 && b >= 0 {
      NatToStringInjective(a, b);
    }
  }
}

=== FILE: VoiceSession.dfy ===
/** The voice negotiation screen (src/components/VoiceChat.tsx): the connection flags, the
    speaking flag and the transcript, which the realtime events update one at a time. The
    audio connection itself is not modelled: whether it comes up is a parameter. */
module VoiceSession {
  import opened Wrappers
  import opened Text

  /** The fields of a realtime event the screen reads: its `type` and its `transcript`. */
  datatype VoiceEvent = VoiceEvent(kind: string, transcript: Option<string>)

  const AudioDelta: string := "response.audio.delta"
  const AudioDone: string := "response.audio.done"
  const BossTranscriptDone: string := "response.audio_transcript.done"
  const UserTranscriptDone: string := "conversation.item.input_audio_transcription.completed"

  /** JavaScript truthiness of `event.transcript`. */
  predicate HasTranscript(e: VoiceEvent) {
    e.transcript.Some? && e.transcript.value != ""
  }

  /** The line an event adds to the transcript, if any. */
  function Line(e: VoiceEvent): Option<string> {
    if e.kind == BossTranscriptDone && HasTranscript(e) then Some("Boss: " + e.transcript.value)
    else if e.kind == UserTranscriptDone && HasTranscript(e) then Some("You: " + e.transcript.value)
    else None
  }

  /** The speaking flag after an event. */
  function SpeakingAfter(speaking: bool, e: VoiceEvent): bool {
    if e.kind == AudioDelta then true
    else if e.kind == AudioDone then false
    else speaking
  }

  /** Only a finished transcript with text adds a line, and the view tells the speakers
      apart: a line starts with `You:` exactly when it is the employee's. The line is the
      speaker's prefix followed by the transcript and nothing else. */
  lemma LineNamesSpeaker(e: VoiceEvent)
    ensures Line(e).Some? <==> (e.kind == BossTranscriptDone || e.kind == UserTranscriptDone) && HasTranscript(e)
    ensures Line(e).Some? ==> (StartsWith(Line(e).value, "You:") <==> e.kind == UserTranscriptDone)
    ensures Line(e).Some? ==> Contains(Line(e).value, e.transcript.value)
    ensures Line(e).Some? && e.kind == BossTranscriptDone ==>
              StartsWith(Line(e).value, "Boss: ") && Line(e).value[|"Boss: "|..] == e.transcript.value
    ensures Line(e).Some? && e.kind == UserTranscriptDone ==>
              StartsWith(Line(e).value, "You: ") && Line(e).value[|"You: "|..] == e.transcript.value
  {
    if Line(e).Some? {
      var t := e.transcript.value;
      if e.kind == BossTranscriptDone {
        assert Line(e).value[0] == 'B';
        assert Line(e).value[..|"Boss: "|] == "Boss: ";
        assert Line(e).value[|"Boss: "|..] == t;
        ContainsInside("Boss: ", t, "");
        assert "Boss: " + t + "" == Line(e).value;
      } else {
        assert Line(e).value[..4] == "You:";
        assert Line(e).value[..|"You: "|] == "You: ";
        assert Line(e).value[|"You: "|..] == t;
        ContainsInside("You: ", t, "");
        assert "You: " + t + "" == Line(e).value;
      }
    }
  }

  /** Events that neither carry audio nor a finished transcript (an `error`, any other
      type, an empty transcript) change nothing. */
  lemma OtherEventsChangeNothing(speaking: bool, e: VoiceEvent)
    requires e.kind != AudioDelta && e.kind != AudioDone
    requires !HasTranscript(e) || (e.kind != BossTranscriptDone && e.kind != UserTranscriptDone)
    ensures SpeakingAfter(speaking, e) == speaking
    ensures Line(e).None?
  {
  }

  /** `transcript.slice(-6)`: the last six lines, or all of them when there are fewer. */
  function LastSix(transcript: seq<string>): (shown: seq<string>)
    ensures |shown| == if |transcript| < 6 then |transcript| else 6
    ensures shown == transcript[|transcript| - |shown|..]
  {
    if |transcript| <= 6 then transcript else transcript[|transcript| - 6..]
  }

  /** A new line is always shown, at the bottom, after the five before it. */
  lemma NewLineIsShown(transcript: seq<string>, line: string)
    ensures LastSix(transcript + [line])[|LastSix(transcript + [line])| - 1] == line
    ensures LastSix(transcript + [line])[..|LastSix(transcript + [line])| - 1]
            == LastSix(transcript)[|LastSix(transcript)| - (|LastSix(transcript + [line])| - 1)..]
  {
    var all := transcript + [line];
    var shown := LastSix(all);
    assert shown == all[|all| - |shown|..];
    assert shown[|shown| - 1] == all[|all| - 1];
    var old6 := LastSix(transcript);
    assert shown[..|shown| - 1] == transcript[|transcript| - (|shown| - 1)..];
    assert old6[|old6| - (|shown| - 1)..] == transcript[|transcript| - (|shown| - 1)..];
  }

  class VoiceSession {
    var isConnected: bool
    var isConnecting: bool
    var isSpeaking: bool
    var transcript: seq<string>
    /** Whether `chatRef.current` holds a connection. */
    var hasChat: bool

    constructor ()
      ensures !isConnected && !isConnecting && !isSpeaking && transcript == [] && !hasChat
    {
      isConnected := false;
      isConnecting := false;
      isSpeaking := false;
      transcript := [];
      hasChat := false;
    }

    /** `handleMessage`. */
    method HandleMessage(e: VoiceEvent)
      modifies this`isSpeaking, this`transcript
      ensures isSpeaking == SpeakingAfter(old(isSpeaking), e)
      ensures transcript == old(transcript) + (if Line(e).Some? then [Line(e).value] else [])
    {
      if e.kind == AudioDelta {
        isSpeaking := true;
      } else if e.kind == AudioDone {
        isSpeaking := false;
      } else if e.kind == BossTranscriptDone {
        if HasTranscript(e) {
          transcript := transcript + ["Boss: " + e.transcript.value];
        }
      } else if e.kind == UserTranscriptDone {
        if HasTranscript(e) {
          transcript := transcript + ["You: " + e.transcript.value];
        }
      }
    }

    /** `startConversation`: a connection object is created, and the screen is connected
        only if it comes up (`initSucceeds`); connecting is over on every path. */
    method StartConversation(initSucceeds: bool)
      modifies this`isConnected, this`isConnecting, this`hasChat
      ensures hasChat
      ensures isConnected == (old(isConnected) || initSucceeds)
      ensures !isConnecting
    {
      isConnecting := true;
      hasChat := true;
      if initSucceeds {
        isConnected := true;
      }
      isConnecting := false;
    }

    /** `endConversation`: disconnects and forgets the connection; the transcript stays. */
    method EndConversation()
      modifies this`isConnected, this`isSpeaking, this`hasChat
      ensures !hasChat && !isConnected && !isSpeaking
    {
      hasChat := false;
      isConnected := false;
      isSpeaking := false;
    }

    /** The lines the screen shows. */
    function ShownLines(): seq<string>
      reads this
    {
      LastSix(transcript)
    }
  }
}

=== FILE: Wrappers.dfy ===
/** Optional values, standing for the `T | null` and `x?.y` results of the source. */
module Wrappers {

  datatype Option<+T> = None | Some(value: T) {

    /** The value, or `default` when there is none (the source's `x ?? d`). */
    function GetOr(default: T): T {
      match this
      case Some(v) => v
      case None => default
    }
  }
}
